=== FILE: README.md ===
# Clinic booking site: a Dafny model of its booking, store and dashboard logic

This project models the logic of a homeopathy clinic's React site. The logic covers:

- the fixed timetable of sixteen half-hour slots and the filter that hides today's slots
  starting within the next 30 minutes;
- the booking form's validator, in its two copies: the routed booking page, and the
  standalone `App` component, which also rejects an unparseable age or date;
- the shared input handler, which clears a chosen slot when a date change makes it
  unavailable;
- the application store (`AppProvider`): appointments, contact messages, the doctor's
  session, and the browser storage that mirrors them;
- the doctor's dashboard: login gate, counts, status buttons, in-place edit, and the
  preview of today's appointments;
- the contact page, with its 300-word cap on the message.

Every operation is a pure Dafny function over immutable datatypes. Time comes in as two
parameters: `today`, a day number, and `now`, minutes after midnight. Ids and creation
times, which the site takes from `Date.now()`, also come in as parameters. A date field is
`NoDate` (empty), `Unparseable` (text the browser's `Date` cannot read), or `OnDay(d)`,
the text "YYYY-MM-DD" of day `d`.
`JsNumber` is an integer or `NaN`. The form state is any text the handlers can be given.
The browser's own constraints on the inputs are not part of the model: the `number`,
`email` and `date` input types, and the `min`/`max` bounds. So `Unparseable` dates and
non-numeric ages describe what the handlers do when handed such state.

Each check is paired with an independent statement of its rule:

- `Violates` states the validator's rules without trimming, regular expressions or
  splitting: whitespace-only text, an `x@y.z` substring, ten digits, a word count.
- `Bookable` states availability by reading the catalog's start times from a table instead
  of parsing the labels.
- `Words` (maximal runs of non-whitespace) defines word counting.
- `Coherent` says that memory and storage agree.

The lemmas tie each operation to its partner, in both directions where the site implies an
equivalence.

Behaviours of the code that the model reproduces and states as lemmas:

- The dashboard's Cancel button calls `updateAppointmentStatus` directly. It therefore
  cancels a same-day appointment that `cancelAppointment` would refuse
  (`Dashboard.DashboardCancelBypassesSameDayRule`).
- The input handler computes the availability list from the date *before* the change. A
  slot that today no longer offers survives a move from another day to today. The next
  validation reports it (`FormEdits.StaleSlotSurvivesDateChange`).
- When handed a form state whose age is "abc", the booking page's `validateForm` passes
  it, because every comparison with `NaN` is false. Its `handleSubmit` then stores `NaN`
  as the age. The page's copy also passes a date the browser cannot parse. The standalone
  copy rejects both (`BookingPage.UnparsedAgeIsStored`, `Validation.NaNAgeSplitsVariants`,
  `Validation.UnparseableDateSplitsVariants`). In the browser the number and date inputs
  sanitise their values and block the submit first, so a visitor typing into the page
  does not produce such a state.
- Both copies compare the problem description against the same 200-word limit:
  `trim().split(/\s+/).length > 200`. On non-blank text that count equals the count
  shown under the field (`Text.ValidatorWordCount`). The two copies differ only in the
  age and date checks (`Validation.VariantsDiverge`).
- The standalone app's record type lists a `confirmed` status, but nothing ever sets it.
  The app creates only `pending` records (`Standalone.AddedRecordHasRealAgeAndDate`).

Modules, one per file:

| module | file | contents |
|---|---|---|
| `Wrappers` | `wrappers.dfy` | `Option`, `Result` |
| `Seqs` | `seqs.dfy` | subsequences, filtering, counting |
| `Text` | `text.dfy` | JavaScript's whitespace set, `trim`, whitespace splitting, `\D` removal, the e-mail pattern, `split` on one character, `parseInt` and `Number` |
| `Records` | `records.dfy` | the stored record types |
| `Slots` | `slots.dfy` | the timetable and the availability filter |
| `Validation` | `validation.dfy` | the two validators |
| `FormEdits` | `form_edits.dfy` | the input handler |
| `Store` | `store.dfy` | the application store |
| `Dashboard` | `dashboard.dfy` | the doctor's dashboard |
| `ContactPage` | `contact_page.dfy` | the contact page |
| `BookingPage` | `booking_page.dfy` | the booking page's submit |
| `Standalone` | `standalone.dfy` | the standalone app |

## Model

| member | source | states |
|---|---|---|
| `Text.TrimStart` | src/pages/BookAppointment.tsx:63 | the result is a suffix of the input; what was cut is all whitespace; the result does not start with whitespace |
| `Text.TrimEnd` | src/pages/BookAppointment.tsx:67 | the result is a prefix of the input; what was cut is all whitespace; the result does not end with whitespace |
| `Text.Trim` | src/pages/BookAppointment.tsx:63 | no contract of its own: it is `Text.TrimEnd` after `Text.TrimStart`, whose contracts say what is cut; `Text.BlankIffAllSpace` states that it is empty exactly for all-whitespace text, and `Text.WordsOfTrim` that it keeps the words |
| `Text.Split` | src/pages/BookAppointment.tsx:99 | `split(/\s+/)` yields at least one piece; `Text.SplitOfTrimmedIsWords` states that on trimmed non-empty text the pieces are exactly the words, and `Text.SplitWithoutEmptyIsWords` that on any text they are the words once empty pieces are dropped |
| `Text.WordCount` | src/pages/BookAppointment.tsx:138-140 | no contract of its own; `Text.WordCountIsWords` states that it is the number of words, and `Text.NoWordsIffBlank` that it is zero exactly for blank text |
| `Text.MatchesEmailPattern` | src/pages/BookAppointment.tsx:70 | no contract of its own; `Text.EmailPatternIsShape` states that it succeeds exactly when some substring is non-whitespace, `@`, non-whitespace, `.`, non-whitespace |
| `Text.ParseInt` | src/pages/BookAppointment.tsx:64 | no contract of its own; `Text.ParseIntOfNatToString` states that it reads every decimal numeral back as its number, `Text.ParseIntOfDigitString` that a digit string reads as its digits' value, and `Validation.ParseIntOfLetters` that "abc" reads as `NaN` |
| `Text.BlankIffAllSpace` | src/pages/BookAppointment.tsx:78 | `!value.trim()` holds exactly when every character is JavaScript whitespace |
| `Text.SplitWithoutEmptyIsWords` | src/pages/BookAppointment.tsx:139 | `split(/\s+/)` with empty pieces removed yields exactly the maximal runs of non-whitespace, in order |
| `Text.WordsOfTrim` | src/pages/BookAppointment.tsx:99 | trimming does not change the words of a text |
| `Text.WordCountIsWords` | src/pages/BookAppointment.tsx:138-140 | `getWordCount` is the number of whitespace-separated words, whatever the surrounding whitespace |
| `Text.SplitOfTrimmedIsWords` | src/pages/BookAppointment.tsx:99 | splitting a non-empty trimmed text at whitespace runs gives no empty piece, so the pieces are the words |
| `Text.ValidatorWordCount` | src/pages/BookAppointment.tsx:99 | on non-blank text the validator's count `trim().split(/\s+/).length` equals the word count and `getWordCount` |
| `Text.NoWordsIffBlank` | src/pages/BookAppointment.tsx:97-99 | a text has no words exactly when it is blank after trimming |
| `Text.DigitsOnly` | src/pages/BookAppointment.tsx:75 | `replace(/\D/g, '')` yields only ASCII digits and is never longer than its input |
| `Text.DigitsOnlyAppend` | src/pages/BookAppointment.tsx:75 | digit stripping distributes over concatenation |
| `Text.DigitsOnlyIgnoresFormatting` | src/pages/BookAppointment.tsx:75 | inserting a non-digit anywhere leaves the stripped digits unchanged |
| `Text.DigitsOnlyOfDigits` | src/pages/BookAppointment.tsx:75 | a digit string strips to itself |
| `Text.ScanEmailSound` | src/pages/BookAppointment.tsx:70 | the left-to-right scan from any position finds a match exactly when an `@`/`.` pair after that position matches |
| `Text.EmailPatternIsShape` | src/pages/BookAppointment.tsx:70 | the unanchored test `/\S+@\S+\.\S+/` succeeds exactly when some substring has non-whitespace, `@`, non-whitespace, `.`, non-whitespace |
| `Text.PiecesOfJoin` | src/pages/BookAppointment.tsx:46-47 | `split(c)[0]` and `split(c)[1]` recover the pieces a string was joined from |
| `Text.NumberOfNatToString` | src/pages/BookAppointment.tsx:47 | `Number` reads the decimal rendering of a natural number back as that number |
| `Text.ParseIntOfDigitString` | src/pages/BookAppointment.tsx:64 | `parseInt` of a run of decimal digits is that run read in base 10 |
| `Text.ParseIntOfNatToString` | src/pages/BookAppointment.tsx:64 | `parseInt(String(n)) === n` for every natural number |
| `Slots.LabelOnClock` | src/pages/BookAppointment.tsx:45-55 | splitting a rendered label at the space and the colon and reading both parts gives its hour, moved by its period, times 60, plus its minutes |
| `Slots.ClockHourOfReading` | src/pages/BookAppointment.tsx:49-53 | the PM/AM adjustment maps a 12-hour reading onto the 24-hour clock |
| `Slots.SlotMinutesOfLabel` | src/pages/BookAppointment.tsx:45-56 | every well-formed `h:mm AM/PM` label reads back as its minutes after midnight: noon is 720, midnight 0 |
| `Slots.CatalogSlotMinutes` | src/pages/BookAppointment.tsx:25-56 | each of the sixteen catalog labels parses to its start time, from 600 (10:00 AM) to 1230 (8:30 PM) |
| `Slots.SlotMinutes` | src/pages/BookAppointment.tsx:45-55 | no contract of its own; `Slots.SlotMinutesOfLabel` states that every well-formed "h:mm AM/PM" label parses to its start time in minutes, and `Slots.CatalogSlotMinutes` gives the sixteen catalog values |
| `Slots.CatalogMinutesIncrease` | src/pages/BookAppointment.tsx:25-29 | the catalog is listed in strictly increasing start time |
| `Slots.CatalogDistinct` | src/pages/BookAppointment.tsx:25-29 | no label appears twice in the catalog |
| `Slots.AvailableSlots` | src/pages/BookAppointment.tsx:31-58 | with no date or another day, the whole catalog in order; always a subsequence of the catalog; a slot is listed exactly when it is in the catalog and, on today, starts more than 30 minutes after now |
| `Slots.CatalogStartsAfter` | src/pages/BookAppointment.tsx:56 | a catalog slot passes the filter exactly when its start time exceeds the threshold |
| `Slots.AvailableIffBookable` | src/pages/BookAppointment.tsx:31-58 | the list holds exactly the slots the timetable allows, with start times taken from the table rather than parsed |
| `Slots.AvailableFrom` | src/pages/BookAppointment.tsx:44-57 | when exactly the first `k` slots start too early, today's list is the catalog from `k` on |
| `Slots.AvailableTodayIsSuffix` | src/pages/BookAppointment.tsx:44-57 | today's list is always a tail of the catalog |
| `Slots.OfferedTodayIff` | src/pages/BookAppointment.tsx:56 | for today, a slot is offered exactly when it starts strictly more than 30 minutes after now; a slot exactly 30 minutes away is not |
| `Slots.PeriodOfLabel` | src/pages/BookAppointment.tsx:548 | a label contains "AM" or "PM" exactly as its period says |
| `Slots.AfternoonAt` | src/pages/BookAppointment.tsx:553 | the six PM labels of the morning group are the catalog's slots 4 to 9 |
| `Slots.CatalogSessions` | src/pages/BookAppointment.tsx:547-555 | on the catalog, the morning group is the slots before 3 PM and the evening group those from 6 PM; each slot is in exactly one |
| `Slots.SessionsPartition` | src/App.tsx:575-583 | for any list of catalog slots the two groups partition it: each slot in exactly one, sizes adding up, order kept |
| `Slots.MorningSlots` | src/pages/BookAppointment.tsx:548 | no contract of its own; `Slots.CatalogSessions` states that on the catalog its test holds exactly for slots starting before 3 PM, and `Slots.SessionsPartition` that with `Slots.EveningSlots` it partitions any list of catalog slots in order |
| `Slots.EveningSlots` | src/pages/BookAppointment.tsx:553 | no contract of its own; `Slots.CatalogSessions` states that on the catalog its test holds exactly for slots starting from 6 PM, and `Slots.SessionsPartition` that with `Slots.MorningSlots` it partitions any list of catalog slots in order |
| `Validation.CheckIffViolates` | src/pages/BookAppointment.tsx:60-101 | a field's check fails exactly when the field breaks its rule, stated without trimming, patterns or splitting |
| `Validation.Check` | src/pages/BookAppointment.tsx:63-101 | no contract of its own; `Validation.CheckIffViolates` states that it fails exactly when the field breaks its rule, and `Validation.CheckMessage` which message it then reports |
| `Validation.RequiredError` | src/pages/BookAppointment.tsx:63 | no contract of its own; `Validation.CheckIffViolates` states that the name, father's name and address checks fail exactly on all-whitespace text |
| `Validation.AgeError` | src/pages/BookAppointment.tsx:64-66 | no contract of its own; `Validation.CheckIffViolates` states that it fails exactly when the age is empty or its `parseInt` is not an integer from 1 to 120 (`NaN` passing on the booking page only), and `Validation.AgeOfNumber` gives the outcome for every decimal numeral |
| `Validation.EmailError` | src/pages/BookAppointment.tsx:68-72 | no contract of its own; `Validation.EmailOutcome` states its outcome and message |
| `Validation.ContactError` | src/pages/BookAppointment.tsx:73-77 | no contract of its own; `Validation.ContactOutcome` states its outcome and message |
| `Validation.DateError` | src/pages/BookAppointment.tsx:79-88 | no contract of its own; `Validation.CheckIffViolates` states that it fails exactly when the date is missing or before today, or, in the standalone copy (src/App.tsx:91-100), unparseable |
| `Validation.SlotError` | src/pages/BookAppointment.tsx:89-96 | no contract of its own; `Validation.CheckIffViolates` states that it fails exactly when no slot is chosen or the timetable does not offer it on the chosen date |
| `Validation.ProblemError` | src/pages/BookAppointment.tsx:97-101 | no contract of its own; `Validation.ProblemOutcome` states its outcome and message |
| `Validation.EmailOutcome` | src/pages/BookAppointment.tsx:68-72 | the e-mail fails exactly when it is blank or has no `x@y.z` substring, with "required" for blank and "invalid" otherwise |
| `Validation.ContactOutcome` | src/pages/BookAppointment.tsx:73-77 | the contact fails exactly when it is blank or does not hold exactly ten digits, with the matching message |
| `Validation.ProblemOutcome` | src/pages/BookAppointment.tsx:97-101 | the description fails exactly when it is blank or has more than 200 words, with the matching message |
| `Validation.ValidateEntries` | src/pages/BookAppointment.tsx:60-104 | the error map has a key exactly for each failed check, holding that check's message |
| `Validation.Validate` | src/pages/BookAppointment.tsx:60-104 | no contract of its own; `Validation.ValidateEntries` states that it has a key exactly for each failed check, `Validation.ErrorsAreViolations` that its keys are exactly the fields breaking their rules, `Validation.ValidIffNoViolation` that it is empty exactly when no rule is broken, and `Validation.VariantsDiverge` where the standalone copy (src/App.tsx:72-117) differs |
| `Validation.ErrorsAreViolations` | src/App.tsx:72-117 | the error map's keys are exactly the fields in violation |
| `Validation.ValidIffNoViolation` | src/pages/BookAppointment.tsx:103-104 | `validateForm` returns true exactly when no field violates its rule |
| `Validation.NamesAccepted` | src/pages/BookAppointment.tsx:63-78 | an accepted form has a non-blank name, father's name and address |
| `Validation.AgeAccepted` | src/pages/BookAppointment.tsx:64-66 | an accepted form's parsed age is from 1 to 120, or `NaN` on the booking page |
| `Validation.ContactDetailsAccepted` | src/pages/BookAppointment.tsx:68-77 | an accepted form has an e-mail of the `x@y.z` shape and exactly ten digits in its contact |
| `Validation.DateAccepted` | src/pages/BookAppointment.tsx:79-88 | an accepted form has a date not before today, and the standalone app's is a real date |
| `Validation.SlotAccepted` | src/pages/BookAppointment.tsx:89-96 | an accepted form's slot is one the timetable allows on its date |
| `Validation.ProblemAccepted` | src/pages/BookAppointment.tsx:97-101 | an accepted form's description is non-blank and at most 200 words |
| `Validation.CheckMessage` | src/pages/BookAppointment.tsx:63-101 | a failed check reports "required" for blank or missing input and the rule's own message otherwise |
| `Validation.ErrorMessages` | src/App.tsx:75-113 | every message in the map names the rule that was broken |
| `Validation.VariantsDiverge` | src/App.tsx:72-117 | the standalone map is the booking page's map plus an age error for a `NaN` age and a date error for an unparseable date; shared keys carry the same messages |
| `Validation.DivergeAt` | src/App.tsx:76-100 | field by field, the standalone copy reports what the booking page reports plus exactly those two cases |
| `Validation.ErrorIsLocal` | src/pages/BookAppointment.tsx:62-101 | a field's outcome depends only on that field, and for the slot on the date and the clock |
| `Validation.NaNAgeSplitsVariants` | src/App.tsx:76 | as form state, a form the booking page's validator accepts stays accepted with age "abc", which the standalone validator rejects |
| `Validation.UnparseableDateSplitsVariants` | src/App.tsx:97 | as form state, a form the booking page's validator accepts stays accepted with an unparseable date, which the standalone validator rejects |
| `Validation.EmptyFormErrors` | src/pages/BookAppointment.tsx:10-21 | the empty form fails all nine checks, each with its "required" message (the age with its range message) |
| `Validation.AgeOfNumber` | src/pages/BookAppointment.tsx:65 | a whole number typed as the age is rejected exactly when it is outside 1 to 120 |
| `FormEdits.WithText` | src/pages/BookAppointment.tsx:109 | writing a text field sets that field and leaves every other field as it was |
| `FormEdits.WriteField` | src/App.tsx:121 | an edit writes its own field and nothing else |
| `FormEdits.ClearError` | src/pages/BookAppointment.tsx:110-112 | the edited field's message is blanked; the keys and other messages stay |
| `FormEdits.ApplyEdit` | src/pages/BookAppointment.tsx:107-120 | writes the field and blanks its message; on a date change, clears the slot exactly when it was stale on the old date; any other edit but one of the slot itself keeps the slot |
| `FormEdits.StaleIffUnavailable` | src/pages/BookAppointment.tsx:114-119 | the slot-clearing test is "a slot is chosen and the timetable does not offer it" |
| `FormEdits.StaleSlotSurvivesDateChange` | src/pages/BookAppointment.tsx:114-119 | moving to today a slot that today no longer offers keeps the slot, and validation then reports it |
| `FormEdits.UnavailableSlotReported` | src/pages/BookAppointment.tsx:89-96 | a chosen slot missing from the availability list is reported |
| `Store.Rehydrate` | src/contexts/AppContext.tsx:39-51 | the stored lists or empty ones; logged in exactly when the stored flag is "true", with the default doctor |
| `Store.StartIsCoherent` | src/contexts/AppContext.tsx:44-50 | after mounting, memory agrees with storage and the session is consistent |
| `Store.Start` | src/contexts/AppContext.tsx:39-51 | no contract of its own; `Store.StartIsCoherent` states that after mounting memory agrees with storage and the session is consistent, and `Store.Rehydrate` what is read from each stored key |
| `Store.NewAppointment` | src/contexts/AppContext.tsx:54-59 | the new record carries the submitted patient fields, the new id and time, and status pending |
| `Store.AddAppointment` | src/contexts/AppContext.tsx:53-64 | one pending record is appended and earlier records are kept; storage holds the new list; nothing else changes |
| `Store.UpdateWhere` | src/contexts/AppContext.tsx:67-69 | same length; each record with the id is transformed and every other record is kept |
| `Store.UpdateAbsent` | src/contexts/AppContext.tsx:75-77 | an id no record carries leaves the list unchanged |
| `Store.UpdateAppointmentStatus` | src/contexts/AppContext.tsx:66-72 | matching records get the new status and nothing else; order and length are kept; storage follows |
| `Store.MergeLaws` | src/contexts/AppContext.tsx:76 | merging an empty patch is the identity; merging is idempotent; a full patch replaces the record |
| `Store.Merge` | src/contexts/AppContext.tsx:76 | no contract of its own; `Store.MergeLaws` states its laws |
| `Store.TooLateToCancel` | src/contexts/AppContext.tsx:93 | no contract of its own; `Store.CancelAppointment` states that a cancel fails exactly when the first record with the id is too late by this test |
| `Store.UpdateAppointment` | src/contexts/AppContext.tsx:74-80 | matching records take the patch's fields; the others are kept; storage follows |
| `Store.FirstWithId` | src/contexts/AppContext.tsx:83 | the position found holds the first record with the id; none is found only when no record has it |
| `Store.CancelAppointment` | src/contexts/AppContext.tsx:82-99 | an unknown id changes nothing; it fails, with the same-day message, exactly when the first record with the id is dated on or before today; otherwise every record with the id is cancelled |
| `Store.TodaysAppointments` | src/contexts/AppContext.tsx:127-130 | the records dated today and not cancelled, in store order, each kept as many times as the store holds it |
| `Seqs.FilterMultiplicity` | src/contexts/AppContext.tsx:129 | `filter` keeps every copy of a selected element and no copy of any other |
| `Store.AddContactForm` | src/contexts/AppContext.tsx:101-111 | one message is appended with the submitted fields; storage holds the new list; nothing else changes |
| `Store.Login` | src/contexts/AppContext.tsx:113-120 | succeeds exactly for doctor/admin123, then opens the session and stores "true"; a failed attempt changes nothing |
| `Store.Logout` | src/contexts/AppContext.tsx:122-125 | no session and no stored flag; the lists are kept |
| `Store.LogoutIdempotent` | src/contexts/AppContext.tsx:122-125 | logging out twice is logging out once |
| `Store.StepPreservesCoherence` | src/contexts/AppContext.tsx:53-125 | every store operation keeps memory and storage in agreement and the session consistent |
| `Store.RunPreservesCoherence` | src/contexts/AppContext.tsx:60-124 | any sequence of operations does the same |
| `Store.SessionAfterStart` | src/contexts/AppContext.tsx:39-125 | from whatever was stored, mounting and then any operations leave a reload-equivalent state |
| `Dashboard.Render` | src/pages/DoctorDashboard.tsx:37-44 | without a session only the redirect to the login page; with one, the total and today's count |
| `Dashboard.Preview` | src/pages/DoctorDashboard.tsx:328 | the first three of today's appointments, or all of them when fewer |
| `Dashboard.StatusCountsPartition` | src/pages/DoctorDashboard.tsx:41-44 | pending, completed and cancelled counts add up to the total |
| `Dashboard.CountStatus` | src/pages/DoctorDashboard.tsx:41-44 | no contract of its own; `Dashboard.StatusCountsPartition` states that the counts of the three statuses add up to the total |
| `Dashboard.HomeCountsBounded` | src/pages/DoctorDashboard.tsx:42-44 | the pending and completed figures together never exceed the total |
| `Dashboard.Actions` | src/pages/DoctorDashboard.tsx:208-234 | Complete and Cancel appear exactly on pending cards; Edit exactly where the list shows it |
| `Dashboard.Press` | src/pages/DoctorDashboard.tsx:211-218 | the card's records get the button's status and the others are kept; storage follows; the session, the contact messages and the other stored keys are kept; a store whose memory agrees with storage still does |
| `Dashboard.DashboardCancelBypassesSameDayRule` | src/pages/DoctorDashboard.tsx:218 | on a pending appointment dated today, `cancelAppointment` refuses but the dashboard's Cancel cancels |
| `Dashboard.BeginEdit` | src/pages/DoctorDashboard.tsx:78-92 | opens the card with exactly its ten patient fields: merging the copy into any record gives this card's patient fields with that record's id, status and creation time; saving the copy unchanged gives back the record |
| `Dashboard.ChangeEdit` | src/pages/DoctorDashboard.tsx:114-147 | each input writes its own field, the age input storing `parseInt` of its text; every other field of the edit and the open card are kept; the patient-fields-only shape is kept |
| `Dashboard.ChangesKeepPatientFieldsOnly` | src/pages/DoctorDashboard.tsx:119-147 | no sequence of inputs puts an id, status or creation time into the edit |
| `Dashboard.SaveEdit` | src/pages/DoctorDashboard.tsx:94-98 | matching records are merged with the edit and the others are kept; storage follows; the session, the contact messages and the other stored keys are kept; a store whose memory agrees with storage still does; the editor closes |
| `Dashboard.CancelEdit` | src/pages/DoctorDashboard.tsx:100-103 | the store is untouched and the editor closes |
| `Dashboard.EditKeepsIdentity` | src/pages/DoctorDashboard.tsx:78-98 | whatever is typed, saving keeps every record's id, status and creation time, and every other record |
| `Dashboard.SaveUnchangedIsIdentity` | src/pages/DoctorDashboard.tsx:80-97 | opening and saving without typing leaves the list unchanged when the id is unique |
| `ContactPage.ChangeField` | src/pages/Contact.tsx:17-29 | a message of at most 300 words is taken with its count, a longer one is dropped, and the other fields are taken verbatim; the page stays well counted |
| `ContactPage.InitialPageWellCounted` | src/pages/Contact.tsx:8-15 | the initial page shows the count of its empty message |
| `ContactPage.ShownCountIsWords` | src/pages/Contact.tsx:20-23 | the shown count is the message's number of words, at most 300 |
| `ContactPage.TypingKeepsCount` | src/pages/Contact.tsx:18-28 | however the visitor types, the message never exceeds 300 words and the count stays true |
| `ContactPage.Submit` | src/pages/Contact.tsx:31-34 | the form is appended unchanged as a contact message and the list is written to storage; the rest of memory and storage is kept; a store whose memory agrees with storage still does; the notice shows |
| `ContactPage.ResetAfterNotice` | src/pages/Contact.tsx:35-39 | an empty form, a zero count, no notice |
| `BookingPage.Submit` | src/pages/BookAppointment.tsx:122-131 | the messages shown are the validator's; the page navigates exactly when the form is valid; a valid form is added through `addAppointment` and the list written to storage, with the rest of memory and storage kept; otherwise the store is untouched; a store whose memory agrees with storage still does |
| `BookingPage.ToData` | src/pages/BookAppointment.tsx:125-128 | no contract of its own; `BookingPage.AcceptedFormAddsOne` states that the stored record carries every field of the form, with the age as `parseInt` of its text |
| `BookingPage.RejectedFormAddsNothing` | src/pages/BookAppointment.tsx:124 | a form with any violation adds nothing, stays, and reports that field |
| `BookingPage.AcceptedFormAddsOne` | src/pages/BookAppointment.tsx:123-130 | an accepted form appends exactly one pending record holding the typed fields and the parsed age |
| `BookingPage.ValidFormFollowsRules` | src/pages/BookAppointment.tsx:60-104 | an accepted form meets every field's rule |
| `BookingPage.BookedRecordFollowsRules` | src/pages/BookAppointment.tsx:122-131 | the booked record meets every rule as it reads after parsing |
| `BookingPage.UnparsedAgeIsStored` | src/pages/BookAppointment.tsx:125-128 | when `handleSubmit` is handed a form state whose age is "abc", the validator passes it and the record stores `NaN` |
| `Standalone.AddLocalAppointment` | src/App.tsx:134-142 | one pending record with the parsed form, the new id and time, after the earlier ones |
| `Standalone.Change` | src/App.tsx:119-132 | the standalone handler is the booking page's; the view and list are kept |
| `Standalone.Submit` | src/App.tsx:144-161 | messages are replaced by the validator's; a valid form is added and the success view shown; an invalid one changes nothing else |
| `Standalone.Reset` | src/App.tsx:163-178 | empty text fields, male, no date, no messages, form view; the list is kept |
| `Standalone.SubmitAddsIffNoViolation` | src/App.tsx:146-152 | a submit adds a record exactly when no field is in violation, and then exactly one |
| `Standalone.AddedRecordHasRealAgeAndDate` | src/App.tsx:76-100 | an added record has an integer age from 1 to 120, a real date not before today, a bookable slot, and status pending |
| `Standalone.ResetFormIsRejected` | src/App.tsx:164-177 | after a reset the form is the initial one and every field is in error |

## Left out

- Time zones are not modelled. The model is the code running in a browser whose local
  time zone is UTC. A date is a day number, and "now" is minutes after midnight.
  - Why it matters: the code mixes UTC and local time. `new Date("YYYY-MM-DD")` is UTC
    midnight of that day, while `setHours(0, 0, 0, 0)` and `toDateString` work in local
    time, and `toISOString` gives the UTC date.
  - Outside UTC the code and the model disagree, in the ways listed below. Most of these
    disagreements last all day, not only near midnight.
  - Store.CancelAppointment: east of UTC (for instance UTC+5:30), a same-day appointment
    reads as 05:30 local time, which is after local midnight. The test
    `appointmentDate <= today` at src/contexts/AppContext.tsx:93 is then false all day, so
    the code cancels it; the model refuses.
  - Validation.DateError: west of UTC, today's date reads as the evening before, which is
    before local midnight. Both validators then reject today all day
    (src/pages/BookAppointment.tsx:85, src/App.tsx:97); the model accepts it.
  - Slots.AvailableSlots: west of UTC, `toDateString` at src/pages/BookAppointment.tsx:38
    and src/App.tsx:50 makes tomorrow's date look like today. Tomorrow's list is then
    filtered by the current time, while today's list is the whole catalog.
  - Store.TodaysAppointments: src/contexts/AppContext.tsx:128 takes today from the UTC date.
    For as many hours as the zone is offset from UTC each day, that is not the local date.
- `parseInt` is modelled in full for the inputs the forms produce: whitespace, sign, `0x`
  and digits. `Number` is modelled only for the digit strings inside slot labels. Floating
  point is not modelled: a `JsNumber` is an integer or `NaN`.
- The browser's constraint validation and input sanitisation are not modelled. The inputs
  are `type="number" min="1" max="120"` for the age, `type="email"` for the e-mail and
  `type="date"` with a `min` for the date (src/pages/BookAppointment.tsx:307-313, 388,
  514-519; src/App.tsx:362-368, 431, 542-547). The browser reduces the age and the date to
  "" or a valid value, and blocks the submit while a constraint fails. The model's form
  state is any text, so it covers states the page's own inputs do not produce.
  The same holds for the contact page, whose four inputs are `required`
  (src/pages/Contact.tsx:165, 180, 197, 212): `ContactPage.Submit` stores a blank or
  partly blank message, which the browser would block before the handler runs.
- `Store.TodaysAppointments`: `OnDay(d)` stands for the text "YYYY-MM-DD" of day `d`, the
  only form a `type="date"` input produces. `getTodaysAppointments` compares the stored
  text with today's ISO date (src/contexts/AppContext.tsx:129). Other texts that `Date`
  can parse, such as "10/10/2026", are not modelled. The code would accept them in the
  validators but never list them among today's appointments.
- JSON is not modelled. Storage holds the values that the stored JSON decodes to, so
  serialising and parsing are taken to round-trip. A stored value that does not parse makes
  `JSON.parse` throw during mounting; the model has no such case.
  One value does not round-trip: `JSON.stringify` writes a `NaN` age as `null`
  (src/contexts/AppContext.tsx:63, 71, 79). A `NaN` age is reachable, for instance by clearing
  the dashboard's age input, which stores `parseInt("")` (src/pages/DoctorDashboard.tsx:124).
  After a reload the code's record then has the age `null`, while the model's `Rehydrate`
  gives back `NaN`. For such records `Store.SessionAfterStart` describes memory after a
  reload only up to this difference.
- Timers are not modelled. The contact page's reset after three seconds is the separate
  function `ContactPage.ResetAfterNotice`, not a timed event.
- Rendering, routing (beyond the route names), icons and `window.open` are not modelled.
- React's batching of state updates is not modelled. Each handler is taken as one atomic
  step that reads the state its render delivered. `addAppointment` and the update
  functions read the closure's `state.appointments` rather than `prev`, so two calls in one
  event would lose the first. The model performs calls one at a time.
- The standalone app's `catch` branch and its `submit` error key are not modelled, because
  nothing in `addAppointment` can throw.
- The login page's form handling is not modelled. Only `login` itself is.
- `Dashboard.Render`: the pending and completed figures are stated only through
  `Dashboard.HomeCountsBounded` and `Dashboard.StatusCountsPartition`, not one by one.
- `Text.Words` is the reference definition of a text's words. It carries no contract of its
  own. The lemmas in `Text` relate it to the code's splitting and counting.

=== FILE: booking_page.dfy ===
/**
 * The booking page's submit: `validateForm` shows its messages, and only a form without
 * errors reaches the store, with the age parsed, before the page moves to the
 * confirmation route.
 */
module BookingPage {
  import opened Wrappers
  import opened Text
  import opened Records
  import opened Slots
  import opened Validation
  import opened FormEdits
  import opened Store

  const SuccessRoute := "/appointment-success"

  /** `{ ...formData, age: parseInt(formData.age) }`: the form as the store receives it. */
  function ToData(f: BookingForm): AppointmentData
  {
    AppointmentData(f.fullName, ParseInt(f.age), f.gender, f.fatherName, f.email, f.contact, f.address,
      f.date, f.timeSlot, f.problemDescription, None)
  }

  /** What a submit leaves behind: the store, the messages shown, and where the page went. */
  datatype Submission = Submission(sys: System, errors: Errors, navigateTo: Option<string>)

  /** `handleSubmit`. */
  function Submit(s: FormState, sys: System, today: int, now: int, id: string, createdAt: string): (r: Submission)
    ensures r.errors == Validate(BookingPage, s.form, today, now)
    ensures r.navigateTo.Some? <==> IsValid(BookingPage, s.form, today, now)
    ensures r.navigateTo.Some? ==> r.navigateTo == Some(SuccessRoute)
    ensures r.navigateTo.None? ==> r.sys == sys
    ensures r.navigateTo.Some? ==> r.sys == AddAppointment(sys, ToData(s.form), id, createdAt)
    ensures r.sys.state.(appointments := sys.state.appointments) == sys.state
    ensures r.sys.storage.(appointments := sys.storage.appointments) == sys.storage
    ensures r.navigateTo.Some? ==> r.sys.storage.appointments == Some(r.sys.state.appointments)
    ensures Coherent(sys) ==> Coherent(r.sys)
  {
    var errors := Validate(BookingPage, s.form, today, now);
    if |errors| == 0 then Submission(AddAppointment(sys, ToData(s.form), id, createdAt), errors, Some(SuccessRoute))
    else Submission(sys, errors, None)
  }

  /** A form with any field in violation adds nothing and stays on the page. */
  lemma RejectedFormAddsNothing(s: FormState, sys: System, today: int, now: int, id: string, createdAt: string, fl: Field)
    requires Violates(BookingPage, s.form, fl, today, now)
    ensures var r := Submit(s, sys, today, now, id, createdAt);
      r.sys == sys && r.navigateTo == None && fl in r.errors
  {
    ErrorsAreViolations(BookingPage, s.form, today, now);
  }

  /** An accepted form adds exactly one record, at the end: pending, with the new id and
      time, the age parsed and every other field as typed; the earlier records are kept. */
  lemma AcceptedFormAddsOne(s: FormState, sys: System, today: int, now: int, id: string, createdAt: string)
    requires IsValid(BookingPage, s.form, today, now)
    ensures var apps := Submit(s, sys, today, now, id, createdAt).sys.state.appointments;
      var n := |sys.state.appointments|;
      |apps| == n + 1 && apps[..n] == sys.state.appointments &&
      apps[n].status == Pending && apps[n].id == id && apps[n].createdAt == createdAt &&
      apps[n].age == ParseInt(s.form.age) && apps[n].fullName == s.form.fullName &&
      apps[n].gender == s.form.gender && apps[n].fatherName == s.form.fatherName &&
      apps[n].email == s.form.email && apps[n].contact == s.form.contact &&
      apps[n].address == s.form.address && apps[n].date == s.form.date &&
      apps[n].timeSlot == s.form.timeSlot && apps[n].problemDescription == s.form.problemDescription
  {
  }

  /** What a booked record is guaranteed to satisfy: the rules of every field, as they read
      after parsing. On this page the age may be `NaN`, and the date may be one the browser
      could not parse. */
  lemma BookedRecordFollowsRules(s: FormState, sys: System, today: int, now: int, id: string, createdAt: string)
    requires IsValid(BookingPage, s.form, today, now)
    ensures var apps := Submit(s, sys, today, now, id, createdAt).sys.state.appointments;
      var a := apps[|apps| - 1];
      !AllSpace(a.fullName) && !AllSpace(a.fatherName) && !AllSpace(a.address) &&
      AcceptableAge(BookingPage, a.age) && EmailShape(a.email) && |DigitsOnly(a.contact)| == 10 &&
      a.date != NoDate && (a.date.OnDay? ==> a.date.day >= today) &&
      Bookable(a.timeSlot, a.date, today, now) &&
      !AllSpace(a.problemDescription) && |Words(a.problemDescription)| <= 200
  {
    var f := s.form;
    ValidFormFollowsRules(f, today, now);
    AcceptedFormAddsOne(s, sys, today, now, id, createdAt);
  }

  /** The rules a form meets when the booking page accepts it, stated on the parsed form. */
  lemma ValidFormFollowsRules(f: BookingForm, today: int, now: int)
    requires IsValid(BookingPage, f, today, now)
    ensures !AllSpace(f.fullName) && !AllSpace(f.fatherName) && !AllSpace(f.address)
    ensures AcceptableAge(BookingPage, ParseInt(f.age)) && EmailShape(f.email) && |DigitsOnly(f.contact)| == 10
    ensures f.date != NoDate && (f.date.OnDay? ==> f.date.day >= today)
    ensures Bookable(f.timeSlot, f.date, today, now)
    ensures !AllSpace(f.problemDescription) && |Words(f.problemDescription)| <= 200
  {
    NamesAccepted(BookingPage, f, today, now);
    AgeAccepted(BookingPage, f, today, now);
    ContactDetailsAccepted(BookingPage, f, today, now);
    DateAccepted(BookingPage, f, today, now);
    SlotAccepted(BookingPage, f, today, now);
    ProblemAccepted(BookingPage, f, today, now);
  }

  /** On this page an age that does not parse is stored as `NaN`: "abc" passes the age check
      and reaches the store. */
  lemma UnparsedAgeIsStored(s: FormState, sys: System, today: int, now: int, id: string, createdAt: string)
    requires s.form.age == "abc" && IsValid(BookingPage, s.form, today, now)
    ensures var apps := Submit(s, sys, today, now, id, createdAt).sys.state.appointments;
      apps[|apps| - 1].age == NaN
  {
    ParseIntOfLetters();
  }
}

=== FILE: contact_page.dfy ===
/**
 * The contact page: a four-field form whose message is capped at 300 words, and a submit
 * that hands the form to the store as it is.
 */
module ContactPage {
  import opened Wrappers
  import opened Text
  import opened Records
  import opened Store

  const WordLimit := 300

  /** The page's state: the form, the word count shown under the message, and whether the
      thank-you notice is up. */
  datatype Page = Page(form: ContactData, wordCount: nat, submitted: bool)

  const EmptyContact: ContactData := ContactData("", "", "", "")
  const InitialPage: Page := Page(EmptyContact, 0, false)

  datatype ContactField = Name | EmailField | Phone | Message

  /** The page's own invariant: the count shown is the message's word count, within the cap. */
  predicate WellCounted(p: Page)
  {
    p.wordCount == WordCount(p.form.message) <= WordLimit
  }

  /** `handleInputChange`: a message is taken, with its word count, only if it has at most 300
      words, and otherwise dropped; the other fields are always taken verbatim. */
  function ChangeField(p: Page, field: ContactField, value: string): (r: Page)
    ensures field == Message && WordCount(value) <= WordLimit ==>
      r == Page(p.form.(message := value), WordCount(value), p.submitted)
    ensures field == Message && WordCount(value) > WordLimit ==> r == p
    ensures field == Name ==> r == p.(form := p.form.(name := value))
    ensures field == EmailField ==> r == p.(form := p.form.(email := value))
    ensures field == Phone ==> r == p.(form := p.form.(phone := value))
    ensures WellCounted(p) ==> WellCounted(r)
  {
    match field
    case Message =>
      var words := DropEmpty(Split(Trim(value)));
      if |words| <= WordLimit then Page(p.form.(message := value), |words|, p.submitted) else p
    case Name => p.(form := p.form.(name := value))
    case EmailField => p.(form := p.form.(email := value))
    case Phone => p.(form := p.form.(phone := value))
  }

  lemma InitialPageWellCounted()
    ensures WellCounted(InitialPage)
  {
    NoWordsIffBlank("");
  }

  /** The word count shown is the number of whitespace-separated words in the message. */
  lemma ShownCountIsWords(p: Page)
    requires WellCounted(p)
    ensures p.wordCount == |Words(p.form.message)| <= WordLimit
  {
    WordCountIsWords(p.form.message);
  }

  /** Applies the changes typed into the form, in order. */
  function ChangeAll(p: Page, changes: seq<(ContactField, string)>): Page
    decreases |changes|
  {
    if changes == [] then p else ChangeAll(ChangeField(p, changes[0].0, changes[0].1), changes[1..])
  }

  /** However the visitor types, the page never holds a message of more than 300 words and
      always shows its true word count. */
  lemma {:induction false} TypingKeepsCount(p: Page, changes: seq<(ContactField, string)>)
    requires WellCounted(p)
    ensures WellCounted(ChangeAll(p, changes))
    ensures |Words(ChangeAll(p, changes).form.message)| <= WordLimit
    decreases |changes|
  {
    if changes == [] {
      ShownCountIsWords(p);
    } else {
      TypingKeepsCount(ChangeField(p, changes[0].0, changes[0].1), changes[1..]);
    }
  }

  /** `handleSubmit`: the form goes to `addContactForm` unchanged and the notice shows. */
  function Submit(p: Page, sys: System, id: string, createdAt: string): (r: (Page, System))
    ensures var n := |sys.state.contactForms|;
      |r.1.state.contactForms| == n + 1 && r.1.state.contactForms[..n] == sys.state.contactForms &&
      r.1.state.contactForms[n] == ContactForm(id, p.form.name, p.form.email, p.form.phone, p.form.message, createdAt)
    ensures r.1.state.(contactForms := sys.state.contactForms) == sys.state
    ensures r.1.storage.contactForms == Some(r.1.state.contactForms)
    ensures r.1.storage.(contactForms := sys.storage.contactForms) == sys.storage
    ensures Coherent(sys) ==> Coherent(r.1)
    ensures r.0.form == p.form && r.0.wordCount == p.wordCount && r.0.submitted
  {
    (p.(submitted := true), AddContactForm(sys, p.form, id, createdAt))
  }

  /** The delayed reset after submitting: an empty form, a zero count and no notice. */
  function ResetAfterNotice(p: Page): (r: Page)
    ensures WellCounted(r) && r.wordCount == 0 && !r.submitted
    ensures r.form.message == [] && r.form.name == [] && r.form.email == [] && r.form.phone == []
  {
    InitialPageWellCounted();
    InitialPage
  }
}

=== FILE: dashboard.dfy ===
/**
 * The doctor's dashboard: the login gate, the summary counts, the status buttons on each
 * appointment card, the in-place edit of an appointment, and the home page's preview of
 * today's appointments.
 */
module Dashboard {
  import opened Wrappers
  import opened Text
  import opened Seqs
  import opened Records
  import opened Store

  const LoginRoute := "/doctor-login"

  /** What the dashboard renders: a redirect, or the dashboard with its figures. */
  datatype View =
    | Redirect(route: string)
    | Home(total: nat, pending: nat, completed: nat, preview: seq<Appointment>, todayCount: nat)

  function CountStatus(apps: seq<Appointment>, s: Status): nat
  {
    Count((a: Appointment) => a.status == s, apps)
  }

  /** The first three of today's appointments, in order. */
  function Preview(s: AppState, today: int): (r: seq<Appointment>)
    ensures |r| <= 3 && |r| <= |TodaysAppointments(s, today)|
    ensures r == TodaysAppointments(s, today)[..|r|]
    ensures |r| == 3 || r == TodaysAppointments(s, today)
  {
    Take(TodaysAppointments(s, today), 3)
  }

  /** `DoctorDashboard`: without a session only the redirect to the login page; with one, the
      list length, the pending and completed counts, and the preview. */
  function Render(s: AppState, today: int): (v: View)
    ensures !s.isLoggedIn <==> v == Redirect(LoginRoute)
    ensures v.Home? ==> v.total == |s.appointments| && v.todayCount == |TodaysAppointments(s, today)|
  {
    if !s.isLoggedIn then Redirect(LoginRoute)
    else
      var todays := TodaysAppointments(s, today);
      Home(|s.appointments|, CountStatus(s.appointments, Pending), CountStatus(s.appointments, Completed),
        Preview(s, today), |todays|)
  }

  /** The three status counts add up to the total, so pending and completed together never
      exceed it. */
  lemma {:induction false} StatusCountsPartition(apps: seq<Appointment>)
    ensures CountStatus(apps, Pending) + CountStatus(apps, Completed) + CountStatus(apps, Cancelled) == |apps|
    decreases |apps|
  {
    if apps != [] {
      StatusCountsPartition(apps[1..]);
      FilterCons((a: Appointment) => a.status == Pending, apps);
      FilterCons((a: Appointment) => a.status == Completed, apps);
      FilterCons((a: Appointment) => a.status == Cancelled, apps);
    }
  }

  lemma HomeCountsBounded(s: AppState, today: int)
    requires s.isLoggedIn
    ensures var v := Render(s, today); v.Home? && v.pending + v.completed <= v.total
  {
    StatusCountsPartition(s.appointments);
  }

  // ---------------------------------------------------------------------------
  // Status buttons
  // ---------------------------------------------------------------------------

  datatype Action = Complete | CancelVisit | Edit

  /** The buttons on a card: Complete and Cancel only while pending, Edit only on the lists
      that show it. */
  function Actions(a: Appointment, showEdit: bool): (r: set<Action>)
    ensures Complete in r <==> a.status == Pending
    ensures CancelVisit in r <==> a.status == Pending
    ensures Edit in r <==> showEdit
  {
    (if a.status == Pending then {Complete, CancelVisit} else {}) + (if showEdit then {Edit} else {})
  }

  /** The status a status button sets. */
  function Target(action: Action): Status
    requires action != Edit
  {
    if action == Complete then Completed else Cancelled
  }

  /** Pressing Complete or Cancel on a card: `updateAppointmentStatus` with the card's id. */
  function Press(sys: System, a: Appointment, action: Action): (r: System)
    requires action != Edit
    ensures |r.state.appointments| == |sys.state.appointments|
    ensures forall i | 0 <= i < |sys.state.appointments| ::
      var b := sys.state.appointments[i];
      r.state.appointments[i] == if b.id == a.id then b.(status := Target(action)) else b
    ensures r.storage.appointments == Some(r.state.appointments)
    ensures r.state.(appointments := sys.state.appointments) == sys.state
    ensures r.storage.(appointments := sys.storage.appointments) == sys.storage
    ensures Coherent(sys) ==> Coherent(r)
  {
    UpdateAppointmentStatus(sys, a.id, Target(action))
  }

  /** The dashboard's Cancel goes around `cancelAppointment`'s rule: a pending appointment
      dated today, which `cancelAppointment` refuses, is cancelled all the same. */
  lemma DashboardCancelBypassesSameDayRule(sys: System, i: nat, today: int)
    requires i < |sys.state.appointments|
    requires forall j | 0 <= j < |sys.state.appointments| :: (sys.state.appointments[j].id == sys.state.appointments[i].id) == (j == i)
    requires sys.state.appointments[i].date == OnDay(today) && sys.state.appointments[i].status == Pending
    ensures CancelVisit in Actions(sys.state.appointments[i], false)
    ensures CancelAppointment(sys, sys.state.appointments[i].id, today).Err?
    ensures Press(sys, sys.state.appointments[i], CancelVisit).state.appointments[i].status == Cancelled
  {
    var a := sys.state.appointments[i];
    assert sys.state.appointments[i].id == a.id && TooLateToCancel(a.date, today);
  }

  // ---------------------------------------------------------------------------
  // Editing an appointment
  // ---------------------------------------------------------------------------

  /** The dashboard's editing state: which appointment is open, and the edited fields. */
  datatype Editing = Editing(open: Option<string>, data: Patch)

  const NotEditing: Editing := Editing(None, EmptyPatch)

  /** An edit never carries the id, the status or the creation time. */
  predicate PatientFieldsOnly(p: Patch)
  {
    p.id.None? && p.status.None? && p.createdAt.None?
  }

  /** `handleEditAppointment`: open the card with a copy of its ten patient fields. */
  function BeginEdit(a: Appointment): (e: Editing)
    ensures e.open == Some(a.id) && PatientFieldsOnly(e.data)
    ensures Merge(a, e.data) == a
    ensures forall b: Appointment :: Merge(b, e.data) == a.(id := b.id, status := b.status, createdAt := b.createdAt)
  {
    Editing(Some(a.id), Patch(None, Some(a.fullName), Some(a.age), Some(a.gender), Some(a.fatherName),
      Some(a.email), Some(a.contact), Some(a.address), Some(a.date), Some(a.timeSlot),
      Some(a.problemDescription), None, None))
  }

  /** The five inputs of the edit form. The age input stores `parseInt` of its text. */
  datatype FieldChange =
    | ChangeName(name: string)
    | ChangeAge(text: string)
    | ChangeEmail(email: string)
    | ChangeContact(contact: string)
    | ChangeProblem(text: string)

  function ChangeEdit(e: Editing, c: FieldChange): (r: Editing)
    ensures r.open == e.open
    ensures PatientFieldsOnly(e.data) ==> PatientFieldsOnly(r.data)
    ensures r.data.fullName == if c.ChangeName? then Some(c.name) else e.data.fullName
    ensures r.data.age == if c.ChangeAge? then Some(ParseInt(c.text)) else e.data.age
    ensures r.data.email == if c.ChangeEmail? then Some(c.email) else e.data.email
    ensures r.data.contact == if c.ChangeContact? then Some(c.contact) else e.data.contact
    ensures r.data.problemDescription == if c.ChangeProblem? then Some(c.text) else e.data.problemDescription
    ensures r.data.(fullName := e.data.fullName, age := e.data.age, email := e.data.email,
      contact := e.data.contact, problemDescription := e.data.problemDescription) == e.data
  {
    var d := e.data;
    Editing(e.open, match c
      case ChangeName(v) => d.(fullName := Some(v))
      case ChangeAge(t) => d.(age := Some(ParseInt(t)))
      case ChangeEmail(v) => d.(email := Some(v))
      case ChangeContact(v) => d.(contact := Some(v))
      case ChangeProblem(v) => d.(problemDescription := Some(v)))
  }

  /** `handleSaveEdit`: `updateAppointment` with the edited fields, then close the editor. */
  function SaveEdit(sys: System, e: Editing, id: string): (r: (System, Editing))
    ensures |r.0.state.appointments| == |sys.state.appointments|
    ensures forall i | 0 <= i < |sys.state.appointments| ::
      var b := sys.state.appointments[i];
      r.0.state.appointments[i] == if b.id == id then Merge(b, e.data) else b
    ensures r.0.storage.appointments == Some(r.0.state.appointments)
    ensures r.0.state.(appointments := sys.state.appointments) == sys.state
    ensures r.0.storage.(appointments := sys.storage.appointments) == sys.storage
    ensures Coherent(sys) ==> Coherent(r.0)
    ensures r.1.open.None? && r.1.data == EmptyPatch
  {
    (UpdateAppointment(sys, id, e.data), NotEditing)
  }

  /** `handleCancelEdit`: close the editor; the store is not touched. */
  function CancelEdit(sys: System, e: Editing): (r: (System, Editing))
    ensures r.0 == sys && r.1.open.None? && r.1.data == EmptyPatch
  {
    (sys, NotEditing)
  }

  /** Applies the changes the doctor typed, in order. */
  function ChangeAll(e: Editing, cs: seq<FieldChange>): Editing
    decreases |cs|
  {
    if cs == [] then e else ChangeAll(ChangeEdit(e, cs[0]), cs[1..])
  }

  lemma {:induction false} ChangesKeepPatientFieldsOnly(e: Editing, cs: seq<FieldChange>)
    requires PatientFieldsOnly(e.data)
    ensures PatientFieldsOnly(ChangeAll(e, cs).data) && ChangeAll(e, cs).open == e.open
    decreases |cs|
  {
    if cs != [] {
      ChangesKeepPatientFieldsOnly(ChangeEdit(e, cs[0]), cs[1..]);
    }
  }

  /** Whatever is typed, saving an edit leaves every record's id, status and creation time as
      they were, and every record with another id untouched. */
  lemma EditKeepsIdentity(sys: System, a: Appointment, cs: seq<FieldChange>)
    ensures var r := SaveEdit(sys, ChangeAll(BeginEdit(a), cs), a.id).0.state.appointments;
      |r| == |sys.state.appointments| &&
      forall i | 0 <= i < |r| ::
        r[i].id == sys.state.appointments[i].id && r[i].status == sys.state.appointments[i].status &&
        r[i].createdAt == sys.state.appointments[i].createdAt &&
        (sys.state.appointments[i].id != a.id ==> r[i] == sys.state.appointments[i])
  {
    ChangesKeepPatientFieldsOnly(BeginEdit(a), cs);
  }

  /** Opening an editor and saving without typing anything changes nothing, as long as the
      card's record is the only one with its id. */
  lemma SaveUnchangedIsIdentity(sys: System, i: nat)
    requires i < |sys.state.appointments|
    requires forall j | 0 <= j < |sys.state.appointments| :: (sys.state.appointments[j].id == sys.state.appointments[i].id) == (j == i)
    ensures var a := sys.state.appointments[i];
      SaveEdit(sys, BeginEdit(a), a.id).0.state.appointments == sys.state.appointments
  {
  }
}

=== FILE: form_edits.dfy ===
/**
 * `handleInputChange`, shared by the booking page and the standalone app: an edit writes
 * one field, blanks that field's error message if one is showing, and, when the date
 * changes while a slot is chosen, clears the slot if it is missing from the availability
 * list. That list is computed from the form as it was BEFORE the edit, because the page
 * reads its state from the render that delivered the event.
 */
module FormEdits {
  import opened Records
  import opened Slots
  import opened Validation

  /** The fields an edit can write as text: every checked field but the date. */
  type TextField = fl: Field | fl != Date witness FullName

  /** One change event: `name` and `value` of the input that fired it. */
  datatype Edit = SetText(field: TextField, value: string) | SetGender(gender: Gender) | SetDate(date: DateField)

  /** What the page holds: the form and the error messages last shown. */
  datatype FormState = FormState(form: BookingForm, errors: Errors)

  function FieldText(f: BookingForm, fl: TextField): string
  {
    match fl
    case FullName => f.fullName
    case Age => f.age
    case FatherName => f.fatherName
    case Email => f.email
    case Contact => f.contact
    case Address => f.address
    case TimeSlot => f.timeSlot
    case ProblemDescription => f.problemDescription
    case Date => ""
  }

  /** `{ ...prev, [name]: value }` for a text field. */
  function WithText(f: BookingForm, fl: TextField, value: string): (g: BookingForm)
    ensures FieldText(g, fl) == value
    ensures forall other: TextField | other != fl :: FieldText(g, other) == FieldText(f, other)
    ensures g.gender == f.gender && g.date == f.date
  {
    match fl
    case FullName => f.(fullName := value)
    case Age => f.(age := value)
    case FatherName => f.(fatherName := value)
    case Email => f.(email := value)
    case Contact => f.(contact := value)
    case Address => f.(address := value)
    case TimeSlot => f.(timeSlot := value)
    case ProblemDescription => f.(problemDescription := value)
    case Date => f
  }

  /** The error key an edit touches; a gender change touches none. */
  predicate Touches(e: Edit, fl: Field)
  {
    match e
    case SetText(field, _) => field == fl
    case SetGender(_) => false
    case SetDate(_) => fl == Date
  }

  /** The slot-clearing rule, stated on the form before the edit: a slot is chosen and the
      timetable does not offer it on the old date. */
  ghost predicate StaleSlot(f: BookingForm, today: int, now: int)
  {
    f.timeSlot != [] && !Bookable(f.timeSlot, f.date, today, now)
  }

  lemma StaleIffUnavailable(f: BookingForm, today: int, now: int)
    ensures StaleSlot(f, today, now) <==> f.timeSlot != [] && f.timeSlot !in AvailableSlots(f.date, today, now)
  {
    AvailableIffBookable(f.timeSlot, f.date, today, now);
  }

  /** `{ ...prev, [name]: value }`: the edited form before any slot clearing. */
  function WriteField(f: BookingForm, e: Edit): (g: BookingForm)
    ensures g.gender == (if e.SetGender? then e.gender else f.gender)
    ensures g.date == (if e.SetDate? then e.date else f.date)
    ensures e.SetText? ==> FieldText(g, e.field) == e.value
    ensures forall fl: TextField | !Touches(e, fl) :: FieldText(g, fl) == FieldText(f, fl)
  {
    match e
    case SetText(fl, value) => WithText(f, fl, value)
    case SetGender(gender) => f.(gender := gender)
    case SetDate(d) => f.(date := d)
  }

  /** `if (errors[name]) setErrors({ ...prev, [name]: '' })`: a message that is showing is
      blanked; the key stays. */
  function ClearError(errors: Errors, e: Edit): (r: Errors)
    ensures r.Keys == errors.Keys
    ensures forall fl | fl in errors :: r[fl] == if Touches(e, fl) then "" else errors[fl]
  {
    match e
    case SetText(fl, _) => if fl in errors && errors[fl] != "" then errors[fl := ""] else errors
    case SetGender(_) => errors
    case SetDate(_) => if Date in errors && errors[Date] != "" then errors[Date := ""] else errors
  }

  /** `handleInputChange` followed by the state updates it queues. */
  function ApplyEdit(s: FormState, e: Edit, today: int, now: int): (r: FormState)
    ensures r.errors.Keys == s.errors.Keys
    ensures forall fl | fl in s.errors :: r.errors[fl] == if Touches(e, fl) then "" else s.errors[fl]
    ensures r.form.gender == (if e.SetGender? then e.gender else s.form.gender)
    ensures r.form.date == (if e.SetDate? then e.date else s.form.date)
    ensures e.SetText? ==> FieldText(r.form, e.field) == e.value
    ensures forall fl: TextField | fl != TimeSlot && !Touches(e, fl) :: FieldText(r.form, fl) == FieldText(s.form, fl)
    ensures e.SetDate? ==> r.form.timeSlot == if StaleSlot(s.form, today, now) then "" else s.form.timeSlot
    ensures !e.SetDate? && !Touches(e, TimeSlot) ==> r.form.timeSlot == s.form.timeSlot
  {
    var form := WriteField(s.form, e);
    var clear := e.SetDate? && s.form.timeSlot != [] && s.form.timeSlot !in AvailableSlots(s.form.date, today, now);
    assert e.SetDate? ==> (clear <==> StaleSlot(s.form, today, now)) by {
      StaleIffUnavailable(s.form, today, now);
    }
    FormState(if clear then form.(timeSlot := "") else form, ClearError(s.errors, e))
  }

  /** Because the availability list is taken from the old date, moving a booking from
      another day to today keeps a slot that today no longer offers (for instance "10:00 AM"
      at noon); the next validation then reports it. */
  lemma StaleSlotSurvivesDateChange(s: FormState, i: nat, today: int, now: int)
    requires i < 16 && CatalogMinutes[i] <= now + 30
    requires s.form.timeSlot == Catalog[i] && s.form.date != OnDay(today)
    ensures var r := ApplyEdit(s, SetDate(OnDay(today)), today, now);
      r.form.timeSlot == s.form.timeSlot && TimeSlot in Validate(BookingPage, r.form, today, now)
  {
    var r := ApplyEdit(s, SetDate(OnDay(today)), today, now);
    var slot := s.form.timeSlot;
    assert r.form.timeSlot == slot && r.form.date == OnDay(today) by {
      assert |Catalog| == 16 && !StaleSlot(s.form, today, now);
    }
    assert slot !in AvailableSlots(OnDay(today), today, now) by {
      CatalogStartsAfter(i, now + 30);
    }
    assert slot != [] by {
      CatalogIsLabels();
      assert LabelledAt(i);
    }
    UnavailableSlotReported(r.form, today, now);
  }

  lemma UnavailableSlotReported(f: BookingForm, today: int, now: int)
    requires f.timeSlot != [] && f.timeSlot !in AvailableSlots(f.date, today, now)
    ensures TimeSlot in Validate(BookingPage, f, today, now)
  {
    var result := SlotError(f.timeSlot, f.date, today, now);
    assert result.Some?;
    SlotCheck(BookingPage, f, today, now);
    ValidateEntries(BookingPage, f, TimeSlot, today, now);
  }
}

=== FILE: records.dfy ===
/** The record shapes the clinic stores: appointments, contact messages and the doctor. */
module Records {
  import opened Text

  datatype Gender = Male | Female | Other

  /** The lifecycle of a stored appointment: created `Pending`, then completed or cancelled. */
  datatype Status = Pending | Completed | Cancelled

  /** A date as a form holds it, abstracted to a day number: no date chosen (the empty
      string), text that does not parse as a date, or a calendar day. */
  datatype DateField = NoDate | Unparseable | OnDay(day: int)

  /** One booking request. The age is whatever `parseInt` made of the form's text, so it
      can be `NaN`. */
  datatype Appointment = Appointment(
    id: string,
    fullName: string,
    age: JsNumber,
    gender: Gender,
    fatherName: string,
    email: string,
    contact: string,
    address: string,
    date: DateField,
    timeSlot: string,
    problemDescription: string,
    status: Status,
    createdAt: string)

  /** One message sent from the contact page. */
  datatype ContactForm = ContactForm(
    id: string,
    name: string,
    email: string,
    phone: string,
    message: string,
    createdAt: string)

  datatype Doctor = Doctor(username: string, password: string, name: string, qualification: string)
}

=== FILE: seqs.dfy ===
/** Order-preserving selection over sequences: the model of JavaScript's `Array.prototype.filter`. */
module Seqs {

  /** `a` can be obtained from `b` by deleting elements, keeping the order of the rest. */
  predicate IsSubsequence<T(==)>(a: seq<T>, b: seq<T>)
    decreases |b|
  {
    a == [] || (b != [] && ((a[0] == b[0] && IsSubsequence(a[1..], b[1..])) || IsSubsequence(a, b[1..])))
  }

  /** The elements of `s` satisfying `p`, in their original order. */
  function Filter<T>(p: T -> bool, s: seq<T>): (r: seq<T>)
    ensures |r| <= |s|
    ensures forall i | 0 <= i < |r| :: p(r[i]) && r[i] in s
    ensures forall i | 0 <= i < |s| :: p(s[i]) ==> s[i] in r
    ensures IsSubsequence(r, s)
  {
    if s == [] then []
    else
      var rest := Filter(p, s[1..]);
      assert s == [s[0]] + s[1..];
      if p(s[0]) then [s[0]] + rest else rest
  }

  /** How many elements of `s` satisfy `p`: `s.filter(p).length`. */
  function Count<T>(p: T -> bool, s: seq<T>): nat
  {
    |Filter(p, s)|
  }

  /** The first `n` elements of `s`, or all of them when there are fewer: `s.slice(0, n)`. */
  function Take<T>(s: seq<T>, n: nat): (r: seq<T>)
    ensures |r| <= n && |r| <= |s|
    ensures |r| == if |s| < n then |s| else n
    ensures r == s[..|r|]
  {
    if |s| <= n then s else s[..n]
  }

  lemma FilterCons<T>(p: T -> bool, s: seq<T>)
    requires s != []
    ensures Filter(p, s) == (if p(s[0]) then [s[0]] else []) + Filter(p, s[1..])
  {
  }

  /** Filtering keeps every copy of a selected element and no copy of any other. */
  lemma FilterMultiplicity<T>(p: T -> bool, s: seq<T>)
    ensures forall x :: multiset(Filter(p, s))[x] == if p(x) then multiset(s)[x] else 0
  {
    forall x
      ensures multiset(Filter(p, s))[x] == if p(x) then multiset(s)[x] else 0
    {
      FilterCountAt(p, s, x);
    }
  }

  lemma MultisetCons<T>(s: seq<T>)
    requires s != []
    ensures multiset(s) == multiset([s[0]]) + multiset(s[1..])
  {
    assert s == [s[0]] + s[1..];
  }

  lemma {:induction false} FilterCountAt<T>(p: T -> bool, s: seq<T>, x: T)
    ensures multiset(Filter(p, s))[x] == if p(x) then multiset(s)[x] else 0
    decreases |s|
  {
    if s != [] {
      var head := if p(s[0]) then [s[0]] else [];
      FilterCountAt(p, s[1..], x);
      FilterCons(p, s);
      MultisetCons(s);
      assert multiset(Filter(p, s))[x] == multiset(head)[x] + multiset(Filter(p, s[1..]))[x];
      if x == s[0] {
        assert multiset(head)[x] == if p(x) then multiset([s[0]])[x] else 0;
      } else {
        assert multiset(head)[x] == 0 && multiset([s[0]])[x] == 0;
      }
    }
  }

  lemma {:induction false} SubsequenceReflexive<T>(s: seq<T>)
    ensures IsSubsequence(s, s)
    decreases |s|
  {
    if s != [] {
      SubsequenceReflexive(s[1..]);
    }
  }

  /** Filtering distributes over concatenation. */
  lemma {:induction false} FilterAppend<T>(p: T -> bool, a: seq<T>, b: seq<T>)
    ensures Filter(p, a + b) == Filter(p, a) + Filter(p, b)
    decreases |a|
  {
    if a == [] {
      assert a + b == b;
    } else {
      assert (a + b)[1..] == a[1..] + b;
      FilterAppend(p, a[1..], b);
    }
  }

  /** Filtering with a predicate that every element satisfies keeps the whole sequence. */
  lemma {:induction false} FilterAll<T>(p: T -> bool, s: seq<T>)
    requires forall i | 0 <= i < |s| :: p(s[i])
    ensures Filter(p, s) == s
    decreases |s|
  {
    if s != [] {
      FilterAll(p, s[1..]);
    }
  }

  /** Filtering with a predicate that no element satisfies keeps nothing. */
  lemma {:induction false} FilterNone<T>(p: T -> bool, s: seq<T>)
    requires forall i | 0 <= i < |s| :: !p(s[i])
    ensures Filter(p, s) == []
    decreases |s|
  {
    if s != [] {
      FilterNone(p, s[1..]);
    }
  }

  /** Two predicates that disagree on every element split the sequence between them: the
      two filtered sequences together are exactly as long as the original. */
  lemma {:induction false} FilterPartition<T>(p: T -> bool, q: T -> bool, s: seq<T>)
    requires forall i | 0 <= i < |s| :: p(s[i]) != q(s[i])
    ensures |Filter(p, s)| + |Filter(q, s)| == |s|
    decreases |s|
  {
    if s != [] {
      FilterPartition(p, q, s[1..]);
      FilterCons(p, s);
      FilterCons(q, s);
    }
  }
}

=== FILE: slots.dfy ===
/**
 * The bookable time slots: the fixed catalog of 12-hour labels, their conversion to minutes
 * after midnight, the availability filter that hides slots starting within the next 30
 * minutes of today, and the split of the available slots into the morning and evening
 * sessions of the booking form.
 */
module Slots {
  import opened Wrappers
  import opened Text
  import opened Seqs
  import opened Records

  /** `timeSlots`: every bookable slot, in display order. */
  const Catalog: seq<string> := [
    "10:00 AM", "10:30 AM", "11:00 AM", "11:30 AM",
    "12:00 PM", "12:30 PM", "1:00 PM", "1:30 PM", "2:00 PM", "2:30 PM",
    "6:00 PM", "6:30 PM", "7:00 PM", "7:30 PM", "8:00 PM", "8:30 PM"]

  /** The six PM labels the booking form lists in its morning session. */
  const AfternoonLabels: seq<string> := ["12:00 PM", "12:30 PM", "1:00 PM", "1:30 PM", "2:00 PM", "2:30 PM"]

  // ---------------------------------------------------------------------------
  // Label to minutes
  // ---------------------------------------------------------------------------

  /** The 24-hour hour of a 12-hour reading: PM adds twelve hours except to 12, and 12 AM is
      hour 0. A period other than "AM" or "PM" leaves the hour as read. */
  function ClockHour(hours: int, period: Option<string>): int
  {
    if period == Some("PM") && hours != 12 then hours + 12
    else if period == Some("AM") && hours == 12 then 0
    else hours
  }

  /** The minutes after midnight a slot label names: the label is split at its first space into
      a time and a period, the time at its first colon into hours and minutes, both read
      with `Number`. `None` stands for the `NaN` a malformed label yields. */
  function SlotMinutes(slot: string): Option<int>
  {
    var time := FirstPiece(slot, ' ');
    var period := SecondPiece(slot, ' ');
    var hours := Number(Some(FirstPiece(time, ':')));
    var minutes := Number(SecondPiece(time, ':'));
    if hours.Int? && minutes.Int? then Some(TimeOfDay(hours.value, minutes.value, period))
    else None
  }

  /** `slotHours * 60 + minutes`. */
  function TimeOfDay(hours: int, minutes: int, period: Option<string>): int
  {
    ClockHour(hours, period) * 60 + minutes
  }

  datatype Period = AM | PM

  function PeriodText(p: Period): string
  {
    if p == AM then "AM" else "PM"
  }

  /** A time on the 12-hour clock, as a label writes it. */
  datatype Reading = Reading(hours: nat, minutes: nat, period: Period)

  predicate WellFormed(r: Reading)
  {
    1 <= r.hours <= 12 && r.minutes < 60
  }

  /** The minutes after midnight of a 12-hour reading. */
  function ReadingMinutes(r: Reading): int
  {
    (r.hours % 12 + (if r.period == PM then 12 else 0)) * 60 + r.minutes
  }

  /** The two-digit minutes "MM" of a label. */
  function MinuteText(minutes: nat): string
    requires minutes < 60
  {
    [DigitChar(minutes / 10), DigitChar(minutes % 10)]
  }

  /** The time part "H:MM" of a label. */
  function TimeText(hours: nat, minutes: nat): string
    requires minutes < 60
  {
    NatToString(hours) + ":" + MinuteText(minutes)
  }

  /** The label "H:MM AM" or "H:MM PM" of a reading. */
  function Label(r: Reading): string
    requires r.minutes < 60
  {
    TimeText(r.hours, r.minutes) + " " + PeriodText(r.period)
  }

  lemma FirstPieceWithout(s: string, c: char)
    requires c !in s
    ensures FirstPiece(s, c) == s
  {
  }

  /** A label splits at its space into its time and its period. */
  lemma LabelPieces(r: Reading)
    requires r.minutes < 60
    ensures FirstPiece(Label(r), ' ') == TimeText(r.hours, r.minutes)
    ensures SecondPiece(Label(r), ' ') == Some(PeriodText(r.period))
  {
    var time := TimeText(r.hours, r.minutes);
    assert Label(r) == time + [' '] + PeriodText(r.period);
    assert ' ' !in time by {
      assert forall i | 0 <= i < |time| :: IsDigit(time[i]) || time[i] == ':';
    }
    PiecesOfJoin(time, ' ', PeriodText(r.period));
    FirstPieceWithout(PeriodText(r.period), ' ');
  }

  /** A time splits at its colon into its hours and its minutes. */
  lemma TimePieces(hours: nat, minutes: nat)
    requires minutes < 60
    ensures FirstPiece(TimeText(hours, minutes), ':') == NatToString(hours)
    ensures SecondPiece(TimeText(hours, minutes), ':') == Some(MinuteText(minutes))
  {
    var h := NatToString(hours);
    assert ':' !in h by {
      assert forall i | 0 <= i < |h| :: IsDigit(h[i]);
    }
    assert TimeText(hours, minutes) == h + [':'] + MinuteText(minutes);
    PiecesOfJoin(h, ':', MinuteText(minutes));
    FirstPieceWithout(MinuteText(minutes), ':');
  }

  lemma SlotMinutesOfPieces(slot: string, hours: int, minutes: int, period: string)
    requires SecondPiece(slot, ' ') == Some(period)
    requires Number(Some(FirstPiece(FirstPiece(slot, ' '), ':'))) == Int(hours)
    requires Number(SecondPiece(FirstPiece(slot, ' '), ':')) == Int(minutes)
    ensures SlotMinutes(slot) == Some(TimeOfDay(hours, minutes, Some(period)))
  {
  }

  /** Every well-formed label reads back as the time it names on the 24-hour clock:
      `(hours mod 12 + 12 if PM) * 60 + minutes`, so "12:00 PM" is 720, "1:00 PM" is 780
      and "12:00 AM" is 0. */
  lemma SlotMinutesOfLabel(r: Reading)
    requires WellFormed(r)
    ensures SlotMinutes(Label(r)) == Some(ReadingMinutes(r))
  {
    LabelOnClock(r);
    ClockHourOfReading(r);
  }

  /** The code's reading of a label's parts: the hour moved by the period text, times 60,
      plus the minutes. */
  function ClockMinutes(r: Reading): int
  {
    TimeOfDay(r.hours, r.minutes, Some(PeriodText(r.period)))
  }

  /** A label reads back as its hours moved by its period, times 60, plus its minutes. */
  lemma LabelOnClock(r: Reading)
    requires WellFormed(r)
    ensures SlotMinutes(Label(r)) == Some(ClockMinutes(r))
  {
    var slot := Label(r);
    assert Number(Some(FirstPiece(FirstPiece(slot, ' '), ':'))) == Int(r.hours) by {
      LabelPieces(r);
      TimePieces(r.hours, r.minutes);
      NumberOfNatToString(r.hours);
    }
    assert Number(SecondPiece(FirstPiece(slot, ' '), ':')) == Int(r.minutes) by {
      LabelPieces(r);
      TimePieces(r.hours, r.minutes);
      TwoDigitsValue(r.minutes);
    }
    assert SecondPiece(slot, ' ') == Some(PeriodText(r.period)) by {
      LabelPieces(r);
    }
    SlotMinutesOfPieces(slot, r.hours, r.minutes, PeriodText(r.period));
  }

  /** The period text moves an hour of 1..12 onto the 24-hour clock. */
  lemma ClockHourOfReading(r: Reading)
    requires WellFormed(r)
    ensures ClockMinutes(r) == ReadingMinutes(r)
  {
    assert PeriodText(r.period) == "AM" <==> r.period == AM;
  }

  lemma TwoDigitsValue(m: nat)
    requires m < 60
    ensures Number(Some(MinuteText(m))) == Int(m)
  {
    var mm := MinuteText(m);
    assert mm[..1] == [DigitChar(m / 10)];
    assert mm[..1][..0] == [];
    assert DigitValue(DigitChar(m / 10)) == m / 10;
    assert DigitValue(DigitChar(m % 10)) == m % 10;
    assert DigitsValue(mm[..1], 10) == m / 10;
  }

  /** The catalog, as readings. */
  const CatalogTimes: seq<Reading> := [
    Reading(10, 0, AM), Reading(10, 30, AM), Reading(11, 0, AM), Reading(11, 30, AM),
    Reading(12, 0, PM), Reading(12, 30, PM), Reading(1, 0, PM), Reading(1, 30, PM),
    Reading(2, 0, PM), Reading(2, 30, PM), Reading(6, 0, PM), Reading(6, 30, PM),
    Reading(7, 0, PM), Reading(7, 30, PM), Reading(8, 0, PM), Reading(8, 30, PM)]

  /** The minutes after midnight at which each catalog slot starts. */
  const CatalogMinutes: seq<int> := [
    600, 630, 660, 690, 720, 750, 780, 810, 840, 870, 1080, 1110, 1140, 1170, 1200, 1230]

  /** The catalog label at index `i` is the label of the `i`-th reading. */
  predicate LabelledAt(i: nat)
    requires i < |Catalog| == |CatalogTimes|
  {
    WellFormed(CatalogTimes[i]) && Catalog[i] == Label(CatalogTimes[i])
  }

  lemma LabelsFrom0()
    ensures |Catalog| == |CatalogTimes| == 16
    ensures forall i | 0 <= i < 4 :: LabelledAt(i)
  {
  }

  lemma LabelsFrom4()
    ensures |Catalog| == |CatalogTimes| == 16
    ensures forall i | 4 <= i < 8 :: LabelledAt(i)
  {
  }

  lemma LabelsFrom8()
    ensures |Catalog| == |CatalogTimes| == 16
    ensures forall i | 8 <= i < 12 :: LabelledAt(i)
  {
  }

  lemma LabelsFrom12()
    ensures |Catalog| == |CatalogTimes| == 16
    ensures forall i | 12 <= i < 16 :: LabelledAt(i)
  {
  }

  lemma CatalogIsLabels()
    ensures |Catalog| == |CatalogTimes| == 16
    ensures forall i | 0 <= i < 16 :: LabelledAt(i)
  {
    LabelsFrom0();
    LabelsFrom4();
    LabelsFrom8();
    LabelsFrom12();
  }

  lemma CatalogMinutesAreReadings()
    ensures |CatalogMinutes| == |CatalogTimes| == 16
    ensures forall i | 0 <= i < 16 :: CatalogMinutes[i] == ReadingMinutes(CatalogTimes[i])
  {
  }

  lemma CatalogSlotMinutesAt(i: nat)
    requires i < 16
    ensures |Catalog| == |CatalogMinutes| == 16
    ensures SlotMinutes(Catalog[i]) == Some(CatalogMinutes[i])
  {
    var r := CatalogTimes[i];
    assert |Catalog| == 16 && LabelledAt(i) by {
      CatalogIsLabels();
    }
    assert CatalogMinutes[i] == ReadingMinutes(r) by {
      CatalogMinutesAreReadings();
    }
    SlotMinutesOfLabel(r);
  }

  /** The catalog is listed in order of start time. */
  lemma CatalogMinutesIncrease()
    ensures |CatalogMinutes| == 16
    ensures forall i, j | 0 <= i < j < 16 :: CatalogMinutes[i] < CatalogMinutes[j]
  {
  }

  /** Each catalog label parses to its start time. */
  lemma CatalogSlotMinutes()
    ensures |CatalogMinutes| == |Catalog| == 16
    ensures forall i | 0 <= i < |Catalog| :: SlotMinutes(Catalog[i]) == Some(CatalogMinutes[i])
  {
    forall i | 0 <= i < 16
      ensures SlotMinutes(Catalog[i]) == Some(CatalogMinutes[i])
    {
      CatalogSlotMinutesAt(i);
    }
  }

  // ---------------------------------------------------------------------------
  // Availability
  // ---------------------------------------------------------------------------

  /** `slotTime > threshold`; a malformed label compares as `NaN`, which is never greater. */
  predicate StartsAfter(slot: string, threshold: int)
  {
    var m := SlotMinutes(slot);
    m.Some? && m.value > threshold
  }

  function StartsAfterTest(threshold: int): string -> bool
  {
    s => StartsAfter(s, threshold)
  }

  /** `getAvailableTimeSlots()`: with no date, or a date on another day than today, every
      slot; for today, the slots starting more than 30 minutes after `now` (minutes after
      midnight), in catalog order. */
  function AvailableSlots(date: DateField, today: int, now: int): (r: seq<string>)
    ensures date != OnDay(today) ==> r == Catalog
    ensures IsSubsequence(r, Catalog)
    ensures forall x :: x in r <==> x in Catalog && (date == OnDay(today) ==> StartsAfter(x, now + 30))
  {
    if date.NoDate? || date != OnDay(today) then
      SubsequenceReflexive(Catalog);
      Catalog
    else Filter(StartsAfterTest(now + 30), Catalog)
  }

  /** A catalog slot starts after a threshold exactly when its start time exceeds it. */
  lemma CatalogStartsAfter(i: nat, threshold: int)
    requires i < 16
    ensures |Catalog| == |CatalogMinutes| == 16
    ensures StartsAfter(Catalog[i], threshold) <==> CatalogMinutes[i] > threshold
  {
    CatalogSlotMinutesAt(i);
  }

  /** The slot as the clinic's timetable allows it: one of the catalog's slots, and on today
      one whose start time, read from the table, is more than 30 minutes away. */
  ghost predicate Bookable(slot: string, date: DateField, today: int, now: int)
  {
    exists k | 0 <= k < 16 :: k < |Catalog| && Catalog[k] == slot && (date == OnDay(today) ==> CatalogMinutes[k] > now + 30)
  }

  /** The availability list holds exactly the bookable slots. */
  lemma AvailableIffBookable(slot: string, date: DateField, today: int, now: int)
    ensures slot in AvailableSlots(date, today, now) <==> Bookable(slot, date, today, now)
  {
    if slot in AvailableSlots(date, today, now) {
      var k :| 0 <= k < |Catalog| && Catalog[k] == slot;
      CatalogStartsAfter(k, now + 30);
    }
    if Bookable(slot, date, today, now) {
      var k :| 0 <= k < 16 && k < |Catalog| && Catalog[k] == slot && (date == OnDay(today) ==> CatalogMinutes[k] > now + 30);
      CatalogStartsAfter(k, now + 30);
    }
  }

  /** Filtering drops a prefix of slots that all start too early. */
  lemma EarlySlotsDropped(now: int, k: nat)
    requires k <= 16
    requires forall i | 0 <= i < k :: CatalogMinutes[i] <= now + 30
    ensures |Catalog| == 16
    ensures Filter(StartsAfterTest(now + 30), Catalog[..k]) == []
  {
    var p := StartsAfterTest(now + 30);
    var early := Catalog[..k];
    forall i | 0 <= i < |early|
      ensures !p(early[i])
    {
      CatalogStartsAfter(i, now + 30);
    }
    FilterNone(p, early);
  }

  /** Filtering keeps a suffix of slots that all start late enough. */
  lemma LateSlotsKept(now: int, k: nat)
    requires k <= 16
    requires forall i | k <= i < 16 :: CatalogMinutes[i] > now + 30
    ensures |Catalog| == 16
    ensures Filter(StartsAfterTest(now + 30), Catalog[k..]) == Catalog[k..]
  {
    var p := StartsAfterTest(now + 30);
    var late := Catalog[k..];
    forall i | 0 <= i < |late|
      ensures p(late[i])
    {
      assert late[i] == Catalog[k + i];
      CatalogStartsAfter(k + i, now + 30);
    }
    FilterAll(p, late);
  }

  /** The slots kept when exactly the first `k` catalog slots start too early. */
  lemma AvailableFrom(today: int, now: int, k: nat)
    requires k <= 16
    requires forall i | 0 <= i < k :: CatalogMinutes[i] <= now + 30
    requires forall i | k <= i < 16 :: CatalogMinutes[i] > now + 30
    ensures AvailableSlots(OnDay(today), today, now) == Catalog[k..]
  {
    var p := StartsAfterTest(now + 30);
    EarlySlotsDropped(now, k);
    LateSlotsKept(now, k);
    assert Catalog == Catalog[..k] + Catalog[k..];
    FilterAppend(p, Catalog[..k], Catalog[k..]);
  }

  /** For today the available slots are always a tail of the catalog: once a slot is late
      enough, so is every later one. */
  lemma AvailableTodayIsSuffix(today: int, now: int)
    ensures exists k | 0 <= k <= |Catalog| :: AvailableSlots(OnDay(today), today, now) == Catalog[k..]
  {
    var k := 0;
    while k < 16 && CatalogMinutes[k] <= now + 30
      invariant 0 <= k <= 16
      invariant forall i | 0 <= i < k :: CatalogMinutes[i] <= now + 30
    {
      k := k + 1;
    }
    AvailableFrom(today, now, k);
  }

  /** For today a catalog slot is offered exactly when it starts more than 30 minutes from
      now; one starting exactly 30 minutes from now (12:30 PM at noon) is not. */
  lemma OfferedTodayIff(today: int, now: int, k: nat)
    requires k < 16
    ensures |Catalog| == |CatalogMinutes| == 16
    ensures Catalog[k] in AvailableSlots(OnDay(today), today, now) <==> CatalogMinutes[k] > now + 30
  {
    CatalogStartsAfter(k, now + 30);
  }

  // ---------------------------------------------------------------------------
  // Morning and evening sessions
  // ---------------------------------------------------------------------------

  /** The booking form's morning group: an AM slot, or one of the six afternoon labels. */
  predicate InMorningSession(slot: string)
  {
    Contains(slot, "AM") || slot in AfternoonLabels
  }

  /** The booking form's evening group: a PM slot that is not one of the six. */
  predicate InEveningSession(slot: string)
  {
    Contains(slot, "PM") && slot !in AfternoonLabels
  }

  function MorningSlots(available: seq<string>): seq<string>
  {
    Filter(InMorningSession, available)
  }

  function EveningSlots(available: seq<string>): seq<string>
  {
    Filter(InEveningSession, available)
  }

  /** On the catalog, the morning session is the slots starting before 3 PM and the evening
      session the slots starting at 6 PM or later; no slot is in both or in neither. */
  lemma CatalogSessions()
    ensures forall i | 0 <= i < |Catalog| ::
      (InMorningSession(Catalog[i]) <==> CatalogMinutes[i] < 900) &&
      (InEveningSession(Catalog[i]) <==> CatalogMinutes[i] >= 1080) &&
      (InMorningSession(Catalog[i]) != InEveningSession(Catalog[i]))
  {
    forall i | 0 <= i < |Catalog| {
      SlotSessions(i);
    }
  }

  lemma SlotSessions(i: nat)
    requires i < 16
    ensures |Catalog| == |CatalogMinutes| == 16
    ensures InMorningSession(Catalog[i]) <==> CatalogMinutes[i] < 900
    ensures InEveningSession(Catalog[i]) <==> CatalogMinutes[i] >= 1080
  {
    var r := CatalogTimes[i];
    assert |Catalog| == 16 && LabelledAt(i) by {
      CatalogIsLabels();
    }
    assert (r.period == AM <==> i < 4) && (CatalogMinutes[i] < 900 <==> i < 10) && (CatalogMinutes[i] >= 1080 <==> 10 <= i);
    PeriodOfLabel(r);
    AfternoonAt(i);
  }

  /** A label mentions "AM" or "PM" exactly as its period says: the time before the period
      holds only digits, a colon and a space. */
  lemma PeriodOfLabel(r: Reading)
    requires r.minutes < 60
    ensures Contains(Label(r), "AM") <==> r.period == AM
    ensures Contains(Label(r), "PM") <==> r.period == PM
  {
    var s := Label(r);
    var time := TimeText(r.hours, r.minutes);
    assert s == time + " " + PeriodText(r.period);
    assert forall k | 0 <= k < |time| :: IsDigit(time[k]) || time[k] == ':';
    ContainsSuffix(s, PeriodText(r.period));
    if r.period == AM {
      assert 'P' !in s;
      if Contains(s, "PM") {
        ContainsFirstChar(s, "PM");
      }
    } else {
      assert 'A' !in s;
      if Contains(s, "AM") {
        ContainsFirstChar(s, "AM");
      }
    }
  }

  /** No label appears twice in the catalog: the start times differ. */
  lemma CatalogDistinct(i: nat, j: nat)
    requires i < 16 && j < 16
    ensures |Catalog| == 16
    ensures Catalog[i] == Catalog[j] ==> i == j
  {
    CatalogSlotMinutesAt(i);
    CatalogSlotMinutesAt(j);
    CatalogMinutesIncrease();
  }

  /** The six afternoon labels are the catalog's slots 4 to 9. */
  lemma AfternoonAt(i: nat)
    requires i < 16
    ensures |Catalog| == 16
    ensures Catalog[i] in AfternoonLabels <==> 4 <= i < 10
  {
    assert AfternoonLabels == Catalog[4..10];
    if Catalog[i] in AfternoonLabels {
      var k :| 0 <= k < 6 && AfternoonLabels[k] == Catalog[i];
      assert Catalog[4 + k] == Catalog[i];
      CatalogDistinct(4 + k, i);
    }
  }

  /** The two session groups partition any list of catalog slots: every slot is in exactly
      one group, the group sizes add up to the list's, and each group keeps the list's
      order. */
  lemma SessionsPartition(available: seq<string>)
    requires forall i | 0 <= i < |available| :: available[i] in Catalog
    ensures forall x :: x in available ==> (x in MorningSlots(available) <==> x !in EveningSlots(available))
    ensures forall x :: x in MorningSlots(available) || x in EveningSlots(available) ==> x in available
    ensures |MorningSlots(available)| + |EveningSlots(available)| == |available|
    ensures IsSubsequence(MorningSlots(available), available) && IsSubsequence(EveningSlots(available), available)
  {
    CatalogSessions();
    forall i | 0 <= i < |available|
      ensures InMorningSession(available[i]) != InEveningSession(available[i])
    {
      var j :| 0 <= j < |Catalog| && Catalog[j] == available[i];
    }
    FilterPartition(InMorningSession, InEveningSession, available);
  }
}

=== FILE: standalone.dfy ===
/**
 * The standalone booking app (`App`): the same form, availability list and input handling
 * as the booking page, a stricter `validateForm`, its own list of appointments kept in
 * component state, and a success view with a reset back to an empty form.
 */
module Standalone {
  import opened Text
  import opened Records
  import opened Slots
  import opened Validation
  import opened FormEdits

  /** The standalone app's statuses; it never sets anything but `pending` itself. */
  datatype LocalStatus = LocalPending | Confirmed | LocalCompleted

  datatype LocalAppointment = LocalAppointment(
    id: string,
    fullName: string,
    age: JsNumber,
    gender: Gender,
    fatherName: string,
    email: string,
    contact: string,
    address: string,
    date: DateField,
    timeSlot: string,
    problemDescription: string,
    status: LocalStatus,
    createdAt: string)

  datatype View = FormView | SuccessView

  datatype App = App(view: View, appointments: seq<LocalAppointment>, page: FormState)

  const InitialApp: App := App(FormView, [], FormState(EmptyForm, map[]))

  /** The record `addAppointment` builds from the submitted form. */
  predicate Holds(a: LocalAppointment, f: BookingForm)
  {
    a.fullName == f.fullName && a.age == ParseInt(f.age) && a.gender == f.gender &&
    a.fatherName == f.fatherName && a.email == f.email && a.contact == f.contact &&
    a.address == f.address && a.date == f.date && a.timeSlot == f.timeSlot &&
    a.problemDescription == f.problemDescription
  }

  /** `addAppointment`: the parsed form, with a new id, `pending` and a creation time,
      appended after the earlier records. */
  function AddLocalAppointment(apps: seq<LocalAppointment>, f: BookingForm, id: string, createdAt: string): (r: seq<LocalAppointment>)
    ensures |r| == |apps| + 1 && r[..|apps|] == apps
    ensures Holds(r[|apps|], f) && r[|apps|].status == LocalPending
    ensures r[|apps|].id == id && r[|apps|].createdAt == createdAt
  {
    apps + [LocalAppointment(id, f.fullName, ParseInt(f.age), f.gender, f.fatherName, f.email, f.contact,
      f.address, f.date, f.timeSlot, f.problemDescription, LocalPending, createdAt)]
  }

  /** `handleInputChange`: identical to the booking page's. */
  function Change(app: App, e: Edit, today: int, now: int): (r: App)
    ensures r.view == app.view && r.appointments == app.appointments
    ensures r.page == ApplyEdit(app.page, e, today, now)
  {
    app.(page := ApplyEdit(app.page, e, today, now))
  }

  /** `handleSubmit`: the messages are always replaced; a valid form is added and the
      success view shown, an invalid one changes nothing else. */
  function Submit(app: App, today: int, now: int, id: string, createdAt: string): (r: App)
    ensures r.page.form == app.page.form
    ensures r.page.errors == Validate(StandaloneApp, app.page.form, today, now)
    ensures IsValid(StandaloneApp, app.page.form, today, now) ==>
      r.view == SuccessView && r.appointments == AddLocalAppointment(app.appointments, app.page.form, id, createdAt)
    ensures !IsValid(StandaloneApp, app.page.form, today, now) ==>
      r.view == app.view && r.appointments == app.appointments
  {
    var errors := Validate(StandaloneApp, app.page.form, today, now);
    if |errors| == 0 then
      App(SuccessView, AddLocalAppointment(app.appointments, app.page.form, id, createdAt), FormState(app.page.form, errors))
    else
      app.(page := FormState(app.page.form, errors))
  }

  /** `resetForm`: every text field empty, gender back to male, no date, no messages, the form
      view; the appointments are kept. */
  function Reset(app: App): (r: App)
    ensures r.view == FormView && r.appointments == app.appointments && r.page.errors == map[]
    ensures forall fl: TextField :: FieldText(r.page.form, fl) == ""
    ensures r.page.form.gender == Male && r.page.form.date == NoDate
  {
    App(FormView, app.appointments, FormState(EmptyForm, map[]))
  }

  /** A submit adds a record exactly when no field violates the app's rules, and then exactly
      one. */
  lemma SubmitAddsIffNoViolation(app: App, today: int, now: int, id: string, createdAt: string)
    ensures var r := Submit(app, today, now, id, createdAt);
      (|r.appointments| == |app.appointments| + 1 <==> forall fl :: !Violates(StandaloneApp, app.page.form, fl, today, now)) &&
      (|r.appointments| == |app.appointments| || |r.appointments| == |app.appointments| + 1)
  {
    ValidIffNoViolation(StandaloneApp, app.page.form, today, now);
  }

  /** A record the app adds has an age from 1 to 120 and a real date no earlier than today:
      the two checks this copy has and the booking page lacks. */
  lemma AddedRecordHasRealAgeAndDate(app: App, today: int, now: int, id: string, createdAt: string)
    requires IsValid(StandaloneApp, app.page.form, today, now)
    ensures var apps := Submit(app, today, now, id, createdAt).appointments;
      var a := apps[|apps| - 1];
      a.age.Int? && 1 <= a.age.value <= 120 && a.date.OnDay? && a.date.day >= today &&
      Bookable(a.timeSlot, a.date, today, now) && a.status == LocalPending
  {
    var f := app.page.form;
    AgeAccepted(StandaloneApp, f, today, now);
    DateAccepted(StandaloneApp, f, today, now);
    SlotAccepted(StandaloneApp, f, today, now);
  }

  /** After a reset every field is back in error, as on a fresh app. */
  lemma ResetFormIsRejected(app: App, today: int, now: int)
    ensures var r := Reset(app);
      r.page == InitialApp.page && forall fl: Field :: fl in Validate(StandaloneApp, r.page.form, today, now)
  {
    EmptyFormErrors(StandaloneApp, Reset(app).page.form, today, now);
  }
}

=== FILE: store.dfy ===
/**
 * The application store (`AppProvider`): the appointment and contact-message lists, the
 * doctor's session, and the browser storage that mirrors them. Every operation is a pure
 * transformer of a `System`, the pair of in-memory state and stored values. Ids and
 * creation times, which the code takes from the clock, are parameters.
 */
module Store {
  import opened Wrappers
  import opened Text
  import opened Seqs
  import opened Records

  /** The appointment the booking page hands to `addAppointment`: everything but the id and
      creation time, with a status the store ignores. */
  datatype AppointmentData = AppointmentData(
    fullName: string,
    age: JsNumber,
    gender: Gender,
    fatherName: string,
    email: string,
    contact: string,
    address: string,
    date: DateField,
    timeSlot: string,
    problemDescription: string,
    status: Option<Status>)

  /** The contact message the contact page hands to `addContactForm`. */
  datatype ContactData = ContactData(name: string, email: string, phone: string, message: string)

  datatype AppState = AppState(
    appointments: seq<Appointment>,
    contactForms: seq<ContactForm>,
    isLoggedIn: bool,
    doctor: Option<Doctor>)

  /** The three storage keys "appointments", "contactForms" and "doctorLogin". The lists are
      held as the values their JSON text decodes to; a missing key is `None`. */
  datatype Storage = Storage(
    appointments: Option<seq<Appointment>>,
    contactForms: Option<seq<ContactForm>>,
    doctorLogin: Option<string>)

  datatype System = System(state: AppState, storage: Storage)

  /** The one account the clinic knows. */
  const DefaultDoctor: Doctor :=
    Doctor("doctor", "admin123", "Dr. Deepthi", "MD (Homeopathy), Rajiv Gandhi University Karnataka")

  /** The state before the mount effect has run. */
  const InitialState: AppState := AppState([], [], false, None)

  /** A session is consistent when the login flag and the doctor record agree. */
  predicate SessionConsistent(s: AppState)
  {
    s.isLoggedIn <==> s.doctor.Some?
  }

  // ---------------------------------------------------------------------------
  // Startup
  // ---------------------------------------------------------------------------

  /** The mount effect: the stored lists or empty ones, and a session exactly when the stored
      flag is "true". */
  function Rehydrate(st: Storage): (s: AppState)
    ensures s.appointments == (if st.appointments.Some? then st.appointments.value else [])
    ensures s.contactForms == (if st.contactForms.Some? then st.contactForms.value else [])
    ensures s.isLoggedIn <==> st.doctorLogin == Some("true")
    ensures SessionConsistent(s) && (s.doctor.Some? ==> s.doctor.value == DefaultDoctor)
  {
    var loggedIn := st.doctorLogin == Some("true");
    AppState(
      match st.appointments case Some(apps) => apps case None => [],
      match st.contactForms case Some(forms) => forms case None => [],
      loggedIn,
      if loggedIn then Some(DefaultDoctor) else None)
  }

  /** The provider after mounting on whatever the browser had stored. */
  function Start(st: Storage): System
  {
    System(Rehydrate(st), st)
  }

  /** Memory and storage agree: reloading the page now would rebuild the same state. */
  predicate Coherent(sys: System)
  {
    Rehydrate(sys.storage) == sys.state
  }

  lemma StartIsCoherent(st: Storage)
    ensures Coherent(Start(st)) && SessionConsistent(Start(st).state)
  {
  }

  // ---------------------------------------------------------------------------
  // Appointments
  // ---------------------------------------------------------------------------

  /** The ten patient fields of a stored appointment are those submitted. */
  predicate Carries(a: Appointment, d: AppointmentData)
  {
    a.fullName == d.fullName && a.age == d.age && a.gender == d.gender && a.fatherName == d.fatherName &&
    a.email == d.email && a.contact == d.contact && a.address == d.address && a.date == d.date &&
    a.timeSlot == d.timeSlot && a.problemDescription == d.problemDescription
  }

  /** `{ ...appointment, id, createdAt, status: 'pending' }`. */
  function NewAppointment(d: AppointmentData, id: string, createdAt: string): (a: Appointment)
    ensures Carries(a, d) && a.status == Pending && a.id == id && a.createdAt == createdAt
  {
    Appointment(id, d.fullName, d.age, d.gender, d.fatherName, d.email, d.contact, d.address, d.date,
      d.timeSlot, d.problemDescription, Pending, createdAt)
  }

  /** `addAppointment`: one new pending record at the end, whatever status was submitted;
      the stored list is the new list; nothing else changes. */
  function AddAppointment(sys: System, d: AppointmentData, id: string, createdAt: string): (r: System)
    ensures |r.state.appointments| == |sys.state.appointments| + 1
    ensures r.state.appointments[..|sys.state.appointments|] == sys.state.appointments
    ensures var a := r.state.appointments[|sys.state.appointments|];
      Carries(a, d) && a.status == Pending && a.id == id && a.createdAt == createdAt
    ensures r.storage.appointments == Some(r.state.appointments)
    ensures r.state.(appointments := sys.state.appointments) == sys.state
    ensures r.storage.(appointments := sys.storage.appointments) == sys.storage
  {
    var apps := sys.state.appointments + [NewAppointment(d, id, createdAt)];
    System(sys.state.(appointments := apps), sys.storage.(appointments := Some(apps)))
  }

  /** The list with `g` applied to every record whose id is `id`, and every other record as
      it was. */
  function UpdateWhere(apps: seq<Appointment>, id: string, g: Appointment -> Appointment): (r: seq<Appointment>)
    ensures |r| == |apps|
    ensures forall i | 0 <= i < |apps| :: r[i] == if apps[i].id == id then g(apps[i]) else apps[i]
  {
    if apps == [] then []
    else [if apps[0].id == id then g(apps[0]) else apps[0]] + UpdateWhere(apps[1..], id, g)
  }

  /** An id that no record carries leaves the list as it is. */
  lemma {:induction false} UpdateAbsent(apps: seq<Appointment>, id: string, g: Appointment -> Appointment)
    requires forall i | 0 <= i < |apps| :: apps[i].id != id
    ensures UpdateWhere(apps, id, g) == apps
  {
    if apps != [] {
      UpdateAbsent(apps[1..], id, g);
    }
  }

  function WithStatus(s: Status): Appointment -> Appointment
  {
    (a: Appointment) => a.(status := s)
  }

  /** `updateAppointmentStatus`: the same records in the same order; matching records get the
      new status and nothing else; the stored list follows. */
  function UpdateAppointmentStatus(sys: System, id: string, s: Status): (r: System)
    ensures |r.state.appointments| == |sys.state.appointments|
    ensures forall i | 0 <= i < |sys.state.appointments| ::
      var a := sys.state.appointments[i];
      r.state.appointments[i] == if a.id == id then a.(status := s) else a
    ensures r.storage.appointments == Some(r.state.appointments)
    ensures r.state.(appointments := sys.state.appointments) == sys.state
    ensures r.storage.(appointments := sys.storage.appointments) == sys.storage
  {
    var apps := UpdateWhere(sys.state.appointments, id, WithStatus(s));
    System(sys.state.(appointments := apps), sys.storage.(appointments := Some(apps)))
  }

  /** `Partial<Appointment>`: any subset of the thirteen fields. */
  datatype Patch = Patch(
    id: Option<string>,
    fullName: Option<string>,
    age: Option<JsNumber>,
    gender: Option<Gender>,
    fatherName: Option<string>,
    email: Option<string>,
    contact: Option<string>,
    address: Option<string>,
    date: Option<DateField>,
    timeSlot: Option<string>,
    problemDescription: Option<string>,
    status: Option<Status>,
    createdAt: Option<string>)

  const EmptyPatch: Patch := Patch(None, None, None, None, None, None, None, None, None, None, None, None, None)

  function Over<T>(o: Option<T>, v: T): T
  {
    match o
    case Some(x) => x
    case None => v
  }

  /** `{ ...app, ...updatedData }`: the patch's fields where present, the record's elsewhere. */
  function Merge(a: Appointment, p: Patch): Appointment
  {
    Appointment(Over(p.id, a.id), Over(p.fullName, a.fullName), Over(p.age, a.age), Over(p.gender, a.gender),
      Over(p.fatherName, a.fatherName), Over(p.email, a.email), Over(p.contact, a.contact),
      Over(p.address, a.address), Over(p.date, a.date), Over(p.timeSlot, a.timeSlot),
      Over(p.problemDescription, a.problemDescription), Over(p.status, a.status), Over(p.createdAt, a.createdAt))
  }

  /** The patch holding every field of `b`. */
  function FullPatch(b: Appointment): Patch
  {
    Patch(Some(b.id), Some(b.fullName), Some(b.age), Some(b.gender), Some(b.fatherName), Some(b.email),
      Some(b.contact), Some(b.address), Some(b.date), Some(b.timeSlot), Some(b.problemDescription),
      Some(b.status), Some(b.createdAt))
  }

  /** Merging nothing changes nothing; merging twice is merging once; a complete patch
      replaces the record outright. */
  lemma MergeLaws(a: Appointment, b: Appointment, p: Patch)
    ensures Merge(a, EmptyPatch) == a
    ensures Merge(Merge(a, p), p) == Merge(a, p)
    ensures Merge(a, FullPatch(b)) == b
  {
  }

  function WithPatch(p: Patch): Appointment -> Appointment
  {
    (a: Appointment) => Merge(a, p)
  }

  /** `updateAppointment`: the same records in the same order; matching records take the
      patch's fields; the stored list follows. */
  function UpdateAppointment(sys: System, id: string, p: Patch): (r: System)
    ensures |r.state.appointments| == |sys.state.appointments|
    ensures forall i | 0 <= i < |sys.state.appointments| ::
      var a := sys.state.appointments[i];
      r.state.appointments[i] == if a.id == id then Merge(a, p) else a
    ensures r.storage.appointments == Some(r.state.appointments)
    ensures r.state.(appointments := sys.state.appointments) == sys.state
    ensures r.storage.(appointments := sys.storage.appointments) == sys.storage
  {
    var apps := UpdateWhere(sys.state.appointments, id, WithPatch(p));
    System(sys.state.(appointments := apps), sys.storage.(appointments := Some(apps)))
  }

  /** Record `j` is the first one carrying `id`. */
  predicate IsFirstWithId(apps: seq<Appointment>, id: string, j: nat)
  {
    j < |apps| && apps[j].id == id && forall k | 0 <= k < j :: apps[k].id != id
  }

  /** The position of the record `Array.prototype.find` returns. */
  function FirstWithId(apps: seq<Appointment>, id: string): (r: Option<nat>)
    ensures r.Some? ==> IsFirstWithId(apps, id, r.value)
    ensures r.None? ==> forall j | 0 <= j < |apps| :: apps[j].id != id
  {
    if apps == [] then None
    else if apps[0].id == id then Some(0)
    else match FirstWithId(apps[1..], id)
      case Some(k) => Some(k + 1)
      case None => None
  }

  /** Only one record can be the first with an id. */
  lemma FirstIsUnique(apps: seq<Appointment>, id: string, i: nat, j: nat)
    requires IsFirstWithId(apps, id, i) && IsFirstWithId(apps, id, j)
    ensures i == j
  {
  }

  const SameDayCancel := "Cannot cancel appointment on the same day"

  /** A stored date on or before today blocks cancelling. A date that does not parse (or is
      empty) compares false with everything and so never blocks. */
  predicate TooLateToCancel(date: DateField, today: int)
  {
    date.OnDay? && date.day <= today
  }

  /** `cancelAppointment`: the first record with the id decides. No such record: nothing
      happens. Its date on or before today: the error is thrown and nothing changes.
      Otherwise every record with the id is marked cancelled. */
  function CancelAppointment(sys: System, id: string, today: int): (r: Result<System>)
    ensures (forall j | 0 <= j < |sys.state.appointments| :: sys.state.appointments[j].id != id) ==> r == Ok(sys)
    ensures r.Err? <==>
      exists j: nat :: IsFirstWithId(sys.state.appointments, id, j) && TooLateToCancel(sys.state.appointments[j].date, today)
    ensures r.Err? ==> r.message == SameDayCancel
    ensures r.Ok? && (exists j | 0 <= j < |sys.state.appointments| :: sys.state.appointments[j].id == id) ==>
      r.value == UpdateAppointmentStatus(sys, id, Cancelled)
  {
    var apps := sys.state.appointments;
    match FirstWithId(apps, id)
    case None => Ok(sys)
    case Some(j) =>
      assert forall i: nat | IsFirstWithId(apps, id, i) :: i == j by {
        forall i: nat | IsFirstWithId(apps, id, i)
          ensures i == j
        {
          FirstIsUnique(apps, id, i, j);
        }
      }
      if TooLateToCancel(apps[j].date, today) then Err(SameDayCancel)
      else Ok(UpdateAppointmentStatus(sys, id, Cancelled))
  }

  /** `getTodaysAppointments`: dated today and not cancelled. */
  predicate IsTodays(a: Appointment, today: int)
  {
    a.date == OnDay(today) && a.status != Cancelled
  }

  function TodaysAppointments(s: AppState, today: int): (r: seq<Appointment>)
    ensures IsSubsequence(r, s.appointments)
    ensures forall a :: a in r <==> a in s.appointments && IsTodays(a, today)
    ensures forall a :: multiset(r)[a] == if IsTodays(a, today) then multiset(s.appointments)[a] else 0
  {
    FilterMultiplicity(a => IsTodays(a, today), s.appointments);
    Filter(a => IsTodays(a, today), s.appointments)
  }

  // ---------------------------------------------------------------------------
  // Contact messages
  // ---------------------------------------------------------------------------

  /** `addContactForm`: one new record at the end, with the submitted fields; the stored list
      is the new list; nothing else changes. */
  function AddContactForm(sys: System, d: ContactData, id: string, createdAt: string): (r: System)
    ensures |r.state.contactForms| == |sys.state.contactForms| + 1
    ensures r.state.contactForms[..|sys.state.contactForms|] == sys.state.contactForms
    ensures r.state.contactForms[|sys.state.contactForms|] == ContactForm(id, d.name, d.email, d.phone, d.message, createdAt)
    ensures r.storage.contactForms == Some(r.state.contactForms)
    ensures r.state.(contactForms := sys.state.contactForms) == sys.state
    ensures r.storage.(contactForms := sys.storage.contactForms) == sys.storage
  {
    var forms := sys.state.contactForms + [ContactForm(id, d.name, d.email, d.phone, d.message, createdAt)];
    System(sys.state.(contactForms := forms), sys.storage.(contactForms := Some(forms)))
  }

  // ---------------------------------------------------------------------------
  // Session
  // ---------------------------------------------------------------------------

  /** `login`: succeeds exactly for the default doctor's username and password, and then opens
      the session and stores the flag "true"; a failed attempt changes nothing. */
  function Login(sys: System, username: string, password: string): (r: (System, bool))
    ensures r.1 <==> username == DefaultDoctor.username && password == DefaultDoctor.password
    ensures r.1 ==> r.0.state.isLoggedIn && r.0.state.doctor == Some(DefaultDoctor) && r.0.storage.doctorLogin == Some("true")
    ensures r.1 ==> r.0.state.appointments == sys.state.appointments && r.0.state.contactForms == sys.state.contactForms
    ensures r.1 ==> r.0.storage.(doctorLogin := sys.storage.doctorLogin) == sys.storage
    ensures !r.1 ==> r.0 == sys
  {
    if username == DefaultDoctor.username && password == DefaultDoctor.password then
      (System(sys.state.(isLoggedIn := true, doctor := Some(DefaultDoctor)), sys.storage.(doctorLogin := Some("true"))), true)
    else (sys, false)
  }

  /** `logout`: no session and no stored flag; the lists stay. */
  function Logout(sys: System): (r: System)
    ensures !r.state.isLoggedIn && r.state.doctor == None && r.storage.doctorLogin == None
    ensures r.state.appointments == sys.state.appointments && r.state.contactForms == sys.state.contactForms
    ensures r.storage.(doctorLogin := sys.storage.doctorLogin) == sys.storage
  {
    System(sys.state.(isLoggedIn := false, doctor := None), sys.storage.(doctorLogin := None))
  }

  lemma LogoutIdempotent(sys: System)
    ensures Logout(Logout(sys)) == Logout(sys)
  {
  }

  // ---------------------------------------------------------------------------
  // Every operation keeps memory and storage in step
  // ---------------------------------------------------------------------------

  /** One call into the store. */
  datatype Op =
    | AddAppointmentOp(data: AppointmentData, id: string, createdAt: string)
    | UpdateStatusOp(id: string, status: Status)
    | UpdateOp(id: string, patch: Patch)
    | CancelOp(id: string, today: int)
    | AddContactOp(contact: ContactData, id: string, createdAt: string)
    | LoginOp(username: string, password: string)
    | LogoutOp

  /** The system after one call; a cancel that throws leaves it as it was. */
  function Step(sys: System, op: Op): System
  {
    match op
    case AddAppointmentOp(d, id, createdAt) => AddAppointment(sys, d, id, createdAt)
    case UpdateStatusOp(id, s) => UpdateAppointmentStatus(sys, id, s)
    case UpdateOp(id, p) => UpdateAppointment(sys, id, p)
    case CancelOp(id, today) =>
      var r := CancelAppointment(sys, id, today);
      if r.Ok? then r.value else sys
    case AddContactOp(d, id, createdAt) => AddContactForm(sys, d, id, createdAt)
    case LoginOp(u, p) => Login(sys, u, p).0
    case LogoutOp => Logout(sys)
  }

  /** Each call keeps a coherent system coherent, so the session stays consistent. */
  lemma StepPreservesCoherence(sys: System, op: Op)
    requires Coherent(sys)
    ensures Coherent(Step(sys, op)) && SessionConsistent(Step(sys, op).state)
  {
  }

  function Run(sys: System, ops: seq<Op>): System
    decreases |ops|
  {
    if ops == [] then sys else Run(Step(sys, ops[0]), ops[1..])
  }

  /** From any stored starting point, any sequence of calls leaves memory and storage in
      agreement and the session consistent. */
  lemma {:induction false} RunPreservesCoherence(sys: System, ops: seq<Op>)
    requires Coherent(sys)
    ensures Coherent(Run(sys, ops)) && SessionConsistent(Run(sys, ops).state)
    decreases |ops|
  {
    if ops != [] {
      StepPreservesCoherence(sys, ops[0]);
      RunPreservesCoherence(Step(sys, ops[0]), ops[1..]);
    }
  }

  lemma SessionAfterStart(st: Storage, ops: seq<Op>)
    ensures Coherent(Run(Start(st), ops)) && SessionConsistent(Run(Start(st), ops).state)
  {
    RunPreservesCoherence(Start(st), ops);
  }
}

=== FILE: text.dfy ===
/**
 * The JavaScript string primitives the clinic's forms rely on, written out character by
 * character: `trim`, `split(/\s+/)`, `replace(/\D/g, '')`, the email pattern
 * `/\S+@\S+\.\S+/`, `includes`, `split(sep)`, `Number` and `parseInt`.
 */
module Text {
  import opened Wrappers

  /** The characters JavaScript's `\s` matches; `String.prototype.trim` strips exactly these. */
  predicate IsSpace(c: char)
  {
    || c == '\t' || c == '\n' || c == '\U{B}' || c == '\U{C}' || c == '\r' || c == ' '
    || c == '\U{A0}' || c == '\U{1680}' || ('\U{2000}' <= c <= '\U{200A}')
    || c == '\U{2028}' || c == '\U{2029}' || c == '\U{202F}' || c == '\U{205F}'
    || c == '\U{3000}' || c == '\U{FEFF}'
  }

  /** JavaScript's `\d`: the ASCII decimal digits only. */
  predicate IsDigit(c: char)
  {
    '0' <= c <= '9'
  }

  predicate AllSpace(s: string)
  {
    forall i | 0 <= i < |s| :: IsSpace(s[i])
  }

  predicate NoSpace(s: string)
  {
    forall i | 0 <= i < |s| :: !IsSpace(s[i])
  }

  // ---------------------------------------------------------------------------
  // Trimming
  // ---------------------------------------------------------------------------

  /** `s` without its leading whitespace. */
  function TrimStart(s: string): (r: string)
    ensures |r| <= |s| && r == s[|s| - |r|..]
    ensures AllSpace(s[..|s| - |r|])
    ensures r == [] || !IsSpace(r[0])
    decreases |s|
  {
    if s != [] && IsSpace(s[0]) then TrimStart(s[1..]) else s
  }

  /** `s` without its trailing whitespace. */
  function TrimEnd(s: string): (r: string)
    ensures |r| <= |s| && r == s[..|r|]
    ensures AllSpace(s[|r|..])
    ensures r == [] || !IsSpace(r[|r| - 1])
    decreases |s|
  {
    if s != [] && IsSpace(s[|s| - 1]) then
      var r := TrimEnd(s[..|s| - 1]);
      assert s[|r|..] == s[..|s| - 1][|r|..] + [s[|s| - 1]];
      r
    else s
  }

  /** `s.trim()`. */
  function Trim(s: string): string
  {
    TrimEnd(TrimStart(s))
  }

  /** `!s.trim()`: the string is empty once trimmed. */
  predicate IsBlank(s: string)
  {
    Trim(s) == []
  }

  lemma TrimStartOfAllSpace(s: string)
    requires AllSpace(s)
    ensures TrimStart(s) == []
  {
  }

  /** A string is blank exactly when every character in it is whitespace. */
  lemma BlankIffAllSpace(s: string)
    ensures IsBlank(s) <==> AllSpace(s)
  {
    var t := TrimStart(s);
    if t != [] {
      assert !IsSpace(TrimEnd(t)[0]);
      assert !IsSpace(s[|s| - |t|]);
    }
  }

  lemma TrimStartIdempotent(s: string)
    ensures TrimStart(TrimStart(s)) == TrimStart(s)
  {
  }

  // ---------------------------------------------------------------------------
  // Words
  // ---------------------------------------------------------------------------

  /** The longest prefix of `s` containing no whitespace. */
  function TakeWord(s: string): (w: string)
    ensures |w| <= |s| && w == s[..|w|]
    ensures NoSpace(w)
    ensures |w| == |s| || IsSpace(s[|w|])
    ensures s != [] && !IsSpace(s[0]) ==> w != []
    decreases |s|
  {
    if s == [] || IsSpace(s[0]) then [] else [s[0]] + TakeWord(s[1..])
  }

  /** The words of `s`: its maximal runs of non-whitespace characters, left to right. */
  function Words(s: string): seq<string>
    decreases |s|
  {
    var t := TrimStart(s);
    if t == [] then []
    else
      var w := TakeWord(t);
      [w] + Words(t[|w|..])
  }

  /** `s.split(/\s+/)`: the pieces between whitespace runs, with an empty piece before a
      leading run and after a trailing run; the empty string splits into one empty piece. */
  function Split(s: string): (parts: seq<string>)
    ensures |parts| >= 1
    decreases |s|
  {
    var w := TakeWord(s);
    if |w| == |s| then [w] else [w] + Split(TrimStart(s[|w|..]))
  }

  /** `parts.filter(word => word.length > 0)`. */
  function DropEmpty(parts: seq<string>): seq<string>
  {
    if parts == [] then []
    else (if parts[0] == [] then [] else [parts[0]]) + DropEmpty(parts[1..])
  }

  /** `getWordCount(text)`: `text.trim().split(/\s+/).filter(word => word.length > 0).length`. */
  function WordCount(s: string): nat
  {
    |DropEmpty(Split(Trim(s)))|
  }

  lemma DropEmptyCons(w: string, rest: seq<string>)
    ensures DropEmpty([w] + rest) == (if w == [] then [] else [w]) + DropEmpty(rest)
  {
    assert ([w] + rest)[1..] == rest;
  }

  /** Leading whitespace adds no word. */
  lemma WordsOfTrimStart(s: string)
    ensures Words(TrimStart(s)) == Words(s)
  {
    TrimStartIdempotent(s);
  }

  /** The words of a text that starts with a word: that word, then the words of the rest. */
  lemma WordsUnfold(s: string)
    requires s != [] && !IsSpace(s[0])
    ensures Words(s) == [TakeWord(s)] + Words(s[|TakeWord(s)|..])
  {
    assert TrimStart(s) == s;
  }

  /** Dropping the empty pieces of a whitespace split leaves exactly the words. */
  lemma {:induction false} SplitWithoutEmptyIsWords(s: string)
    ensures DropEmpty(Split(s)) == Words(s)
    decreases |s|, 1
  {
    if s == [] {
      assert Split(s) == [[]];
      assert DropEmpty([[]]) == [];
    } else if IsSpace(s[0]) {
      SplitWithoutEmptyFromSpace(s);
    } else {
      SplitWithoutEmptyFromWord(s);
    }
  }

  lemma {:induction false} SplitWithoutEmptyFromSpace(s: string)
    requires s != [] && IsSpace(s[0])
    ensures DropEmpty(Split(s)) == Words(s)
    decreases |s|, 0
  {
    var w := TakeWord(s);
    assert w == [];
    assert s[|w|..] == s;
    var rest := TrimStart(s);
    assert Split(s) == [w] + Split(rest);
    DropEmptyCons(w, Split(rest));
    SplitWithoutEmptyIsWords(rest);
    WordsOfTrimStart(s);
  }

  lemma {:induction false} SplitWithoutEmptyFromWord(s: string)
    requires s != [] && !IsSpace(s[0])
    ensures DropEmpty(Split(s)) == Words(s)
    decreases |s|, 0
  {
    var w := TakeWord(s);
    WordsUnfold(s);
    if |w| == |s| {
      assert Split(s) == [w];
      assert s[|w|..] == [];
      DropEmptyCons(w, []);
    } else {
      var rest := TrimStart(s[|w|..]);
      assert Split(s) == [w] + Split(rest);
      DropEmptyCons(w, Split(rest));
      SplitWithoutEmptyIsWords(rest);
      WordsOfTrimStart(s[|w|..]);
    }
  }

  lemma {:induction false} TrimStartAppendSpace(a: string, b: string)
    requires AllSpace(b)
    ensures TrimStart(a + b) == if TrimStart(a) == [] then [] else TrimStart(a) + b
    decreases |a|
  {
    if a == [] {
      assert a + b == b;
      TrimStartOfAllSpace(b);
    } else if IsSpace(a[0]) {
      assert (a + b)[1..] == a[1..] + b;
      TrimStartAppendSpace(a[1..], b);
    } else {
      assert TrimStart(a) == a;
      assert TrimStart(a + b) == a + b;
    }
  }

  lemma {:induction false} TakeWordAppendSpace(u: string, b: string)
    requires AllSpace(b)
    ensures TakeWord(u + b) == TakeWord(u)
    decreases |u|
  {
    if u == [] {
      assert u + b == b;
    } else if !IsSpace(u[0]) {
      assert (u + b)[1..] == u[1..] + b;
      TakeWordAppendSpace(u[1..], b);
    }
  }

  /** Trailing whitespace adds no word. */
  lemma {:induction false} WordsAppendSpace(a: string, b: string)
    requires AllSpace(b)
    ensures Words(a + b) == Words(a)
    decreases |a|, 1
  {
    var t := TrimStart(a);
    TrimStartAppendSpace(a, b);
    WordsOfTrimStart(a);
    WordsOfTrimStart(a + b);
    if t == [] {
      assert TrimStart(a + b) == [];
    } else {
      WordsAppendSpaceFromWord(t, b);
    }
  }

  lemma SplitAt<T>(s: seq<T>, n: nat)
    requires n <= |s|
    ensures s == s[..n] + s[n..]
  {
  }

  lemma DropAppend<T>(a: seq<T>, b: seq<T>, n: nat)
    requires n <= |a|
    ensures (a + b)[n..] == a[n..] + b
  {
  }

  lemma {:induction false} WordsAppendSpaceFromWord(t: string, b: string)
    requires AllSpace(b) && t != [] && !IsSpace(t[0])
    ensures Words(t + b) == Words(t)
    decreases |t|, 0
  {
    var w := TakeWord(t);
    var rest := t[|w|..];
    assert Words(t) == [w] + Words(rest) by {
      WordsUnfold(t);
    }
    assert Words(t + b) == [w] + Words(rest + b) by {
      var tb := t + b;
      assert tb[0] == t[0];
      TakeWordAppendSpace(t, b);
      WordsUnfold(tb);
      DropAppend(t, b, |w|);
    }
    assert Words(rest + b) == Words(rest) by {
      WordsAppendSpace(rest, b);
    }
  }

  /** Trimming a text does not change its words. */
  lemma WordsOfTrim(s: string)
    ensures Words(Trim(s)) == Words(s)
  {
    var t := TrimStart(s);
    var e := TrimEnd(t);
    var tail := t[|e|..];
    assert t == e + tail by {
      SplitAt(t, |e|);
    }
    assert Words(e + tail) == Words(e) by {
      WordsAppendSpace(e, tail);
    }
    assert Words(t) == Words(s) by {
      WordsOfTrimStart(s);
    }
  }

  /** Whatever the surrounding whitespace, `getWordCount` counts the words of the text. */
  lemma WordCountIsWords(s: string)
    ensures WordCount(s) == |Words(s)|
  {
    SplitWithoutEmptyIsWords(Trim(s));
    WordsOfTrim(s);
  }

  /** A non-empty string that neither starts nor ends with whitespace. */
  predicate IsTrimmed(t: string)
  {
    t != [] && !IsSpace(t[0]) && !IsSpace(t[|t| - 1])
  }

  /** Splitting a trimmed, non-empty text produces no empty piece. */
  lemma {:induction false} SplitOfTrimmedIsWords(t: string)
    requires IsTrimmed(t)
    ensures Split(t) == Words(t)
    decreases |t|
  {
    var w := TakeWord(t);
    assert TrimStart(t) == t;
    if |w| == |t| {
      assert t[|w|..] == [];
    } else {
      var u := t[|w|..];
      var rest := TrimStart(u);
      assert !AllSpace(u[..|u|]) by {
        assert u[..|u|][|u| - 1] == t[|t| - 1];
      }
      assert IsTrimmed(rest) by {
        assert rest[|rest| - 1] == u[|u| - 1] == t[|t| - 1];
      }
      assert Split(t) == [w] + Split(rest);
      assert Words(t) == [w] + Words(u) by {
        WordsUnfold(t);
      }
      assert Words(u) == Words(rest) by {
        WordsOfTrimStart(u);
      }
      SplitOfTrimmedIsWords(rest);
    }
  }

  /** The count `validateForm` compares against its limit, `text.trim().split(/\s+/).length`,
      is the number of words whenever the text is not blank (a blank text splits into one
      empty piece, which is why the blank case is tested first). */
  lemma ValidatorWordCount(s: string)
    requires !IsBlank(s)
    ensures |Split(Trim(s))| == |Words(s)| == WordCount(s)
  {
    var t := TrimStart(s);
    var e := Trim(s);
    assert e == TrimEnd(t);
    assert e != [];
    assert e[0] == t[0];
    SplitOfTrimmedIsWords(e);
    WordsOfTrim(s);
    WordCountIsWords(s);
  }

  /** A text has no word exactly when it is blank. */
  lemma NoWordsIffBlank(s: string)
    ensures |Words(s)| == 0 <==> IsBlank(s)
    ensures WordCount(s) == 0 <==> IsBlank(s)
  {
    BlankIffAllSpace(s);
    WordCountIsWords(s);
    var t := TrimStart(s);
    if t == [] {
      assert AllSpace(s[..|s|]);
      assert s[..|s|] == s;
    } else {
      assert !IsSpace(s[|s| - |t|]);
    }
  }

  // ---------------------------------------------------------------------------
  // Digits of a phone number
  // ---------------------------------------------------------------------------

  /** `s.replace(/\D/g, '')`: the decimal digits of `s`, in order. */
  function DigitsOnly(s: string): (r: string)
    ensures forall i | 0 <= i < |r| :: IsDigit(r[i])
    ensures |r| <= |s|
  {
    if s == [] then [] else (if IsDigit(s[0]) then [s[0]] else []) + DigitsOnly(s[1..])
  }

  lemma {:induction false} DigitsOnlyAppend(a: string, b: string)
    ensures DigitsOnly(a + b) == DigitsOnly(a) + DigitsOnly(b)
    decreases |a|
  {
    if a == [] {
      assert a + b == b;
    } else {
      assert (a + b)[1..] == a[1..] + b;
      DigitsOnlyAppend(a[1..], b);
    }
  }

  /** Inserting a formatting character (a dash, a space, a parenthesis) anywhere leaves the
      digit projection, and so the phone check, unchanged. */
  lemma DigitsOnlyIgnoresFormatting(a: string, c: char, b: string)
    requires !IsDigit(c)
    ensures DigitsOnly(a + [c] + b) == DigitsOnly(a + b)
  {
    DigitsOnlyAppend(a + [c], b);
    DigitsOnlyAppend(a, [c]);
    DigitsOnlyAppend(a, b);
    assert DigitsOnly([c]) == [];
  }

  /** A string made of digits only is its own digit projection. */
  lemma {:induction false} DigitsOnlyOfDigits(s: string)
    requires forall i | 0 <= i < |s| :: IsDigit(s[i])
    ensures DigitsOnly(s) == s
    decreases |s|
  {
    if s != [] {
      DigitsOnlyOfDigits(s[1..]);
    }
  }

  // ---------------------------------------------------------------------------
  // The email pattern /\S+@\S+\.\S+/
  // ---------------------------------------------------------------------------

  /** Every character of `s[from..to]` is non-whitespace. */
  predicate NoSpaceBetween(s: string, from: int, to: int)
    requires 0 <= from && to <= |s|
  {
    forall k | from <= k < to :: !IsSpace(s[k])
  }

  /** `s` has an `@` at `p` and a `.` at `q` around which the pattern matches: a
      non-whitespace character before the `@`, at least one non-whitespace character
      between them, and a non-whitespace character after the `.`. */
  predicate EmailMatchAt(s: string, p: int, q: int)
  {
    && 0 < p && p + 1 < q && q + 1 < |s|
    && s[p] == '@' && s[q] == '.'
    && !IsSpace(s[p - 1]) && !IsSpace(s[q + 1])
    && NoSpaceBetween(s, p + 1, q)
  }

  /** `/\S+@\S+\.\S+/.test(s)`: the pattern is unanchored, so it matches iff some `@`/`.` pair
      fits it. */
  ghost predicate EmailShape(s: string)
  {
    exists p, q :: EmailMatchAt(s, p, q)
  }

  /** Some `@` at `p` with a non-whitespace predecessor is followed by non-whitespace
      characters up to, but excluding, position `j`, with at least one of them. */
  ghost predicate AnchoredAt(s: string, j: int)
    requires 0 <= j <= |s|
  {
    exists p | 0 < p && p + 1 < j :: s[p] == '@' && !IsSpace(s[p - 1]) && NoSpaceBetween(s, p + 1, j)
  }

  /** The regular-expression test, run as one left-to-right scan: `anchored` says whether
      the text before position `j` ends in a match of `\S@\S+`. */
  function ScanEmail(s: string, j: nat, anchored: bool): bool
    requires j <= |s|
    decreases |s| - j
  {
    if j == |s| then false
    else if anchored && s[j] == '.' && j + 1 < |s| && !IsSpace(s[j + 1]) then true
    else
      var next := !IsSpace(s[j]) && (anchored || (j >= 2 && s[j - 1] == '@' && !IsSpace(s[j - 2])));
      ScanEmail(s, j + 1, next)
  }

  /** `/\S+@\S+\.\S+/.test(s)` as the validators evaluate it. */
  function MatchesEmailPattern(s: string): bool
  {
    ScanEmail(s, 0, false)
  }

  lemma AnchoredStep(s: string, j: nat)
    requires j < |s|
    ensures AnchoredAt(s, j + 1) <==>
      !IsSpace(s[j]) && (AnchoredAt(s, j) || (j >= 2 && s[j - 1] == '@' && !IsSpace(s[j - 2])))
  {
    if AnchoredAt(s, j + 1) {
      var p :| 0 < p && p + 1 < j + 1 && s[p] == '@' && !IsSpace(s[p - 1]) && NoSpaceBetween(s, p + 1, j + 1);
      if p + 1 < j {
        assert NoSpaceBetween(s, p + 1, j);
      }
    }
    if !IsSpace(s[j]) && AnchoredAt(s, j) {
      var p :| 0 < p && p + 1 < j && s[p] == '@' && !IsSpace(s[p - 1]) && NoSpaceBetween(s, p + 1, j);
      assert NoSpaceBetween(s, p + 1, j + 1);
    }
    if !IsSpace(s[j]) && j >= 2 && s[j - 1] == '@' && !IsSpace(s[j - 2]) {
      assert NoSpaceBetween(s, j, j + 1);
    }
  }

  lemma {:induction false} ScanEmailSound(s: string, j: nat)
    requires j <= |s|
    ensures ScanEmail(s, j, AnchoredAt(s, j)) <==> exists p, q | j <= q :: EmailMatchAt(s, p, q)
    decreases |s| - j
  {
    if j < |s| {
      var anchored := AnchoredAt(s, j);
      var matchHere := anchored && s[j] == '.' && j + 1 < |s| && !IsSpace(s[j + 1]);
      if matchHere {
        var p :| 0 < p && p + 1 < j && s[p] == '@' && !IsSpace(s[p - 1]) && NoSpaceBetween(s, p + 1, j);
        assert EmailMatchAt(s, p, j);
      } else {
        AnchoredStep(s, j);
        ScanEmailSound(s, j + 1);
        if exists p, q | j <= q :: EmailMatchAt(s, p, q) {
          var p, q :| j <= q && EmailMatchAt(s, p, q);
          if q == j {
            assert AnchoredAt(s, j);
            assert false;
          }
        }
      }
    }
  }

  /** The scan decides exactly the pattern's match. */
  lemma EmailPatternIsShape(s: string)
    ensures MatchesEmailPattern(s) <==> EmailShape(s)
  {
    assert !AnchoredAt(s, 0);
    ScanEmailSound(s, 0);
  }

  // ---------------------------------------------------------------------------
  // Substrings and separators
  // ---------------------------------------------------------------------------

  /** `t` occurs in `s` starting at index `i`. */
  predicate OccursAt(s: string, t: string, i: int)
  {
    0 <= i && i + |t| <= |s| && s[i..i + |t|] == t
  }

  /** `s.includes(t)`. */
  predicate Contains(s: string, t: string)
  {
    exists i | 0 <= i <= |s| - |t| :: OccursAt(s, t, i)
  }

  lemma ContainsFirstChar(s: string, t: string)
    requires t != [] && Contains(s, t)
    ensures t[0] in s
  {
    var i :| 0 <= i <= |s| - |t| && OccursAt(s, t, i);
    assert s[i..i + |t|][0] == s[i];
  }

  lemma ContainsSuffix(s: string, t: string)
    requires |t| <= |s| && s[|s| - |t|..] == t
    ensures Contains(s, t)
  {
    assert OccursAt(s, t, |s| - |t|);
  }

  /** The index of the first occurrence of `c` in `s`, if any. */
  function IndexOf(s: string, c: char): (r: Option<nat>)
    ensures r.None? <==> c !in s
    ensures r.Some? ==> r.value < |s| && s[r.value] == c && c !in s[..r.value]
  {
    if s == [] then None
    else if s[0] == c then Some(0)
    else match IndexOf(s[1..], c)
      case None => None
      case Some(i) =>
        assert s[..i + 1] == [s[0]] + s[1..][..i];
        Some(i + 1)
  }

  /** `s.split(c)[0]`: the text before the first `c`, or all of `s`. */
  function FirstPiece(s: string, c: char): string
  {
    match IndexOf(s, c)
    case None => s
    case Some(i) => s[..i]
  }

  /** `s.split(c)[1]`: the text between the first and the second `c`; `undefined` when `c`
      does not occur. */
  function SecondPiece(s: string, c: char): Option<string>
  {
    match IndexOf(s, c)
    case None => None
    case Some(i) => Some(FirstPiece(s[i + 1..], c))
  }

  /** The separator splits a string back into the pieces it was joined from. */
  lemma PiecesOfJoin(a: string, c: char, b: string)
    requires c !in a
    ensures FirstPiece(a + [c] + b, c) == a
    ensures SecondPiece(a + [c] + b, c) == Some(FirstPiece(b, c))
  {
    var s := a + [c] + b;
    assert s[|a|] == c;
    assert s[..|a|] == a;
    var i := IndexOf(s, c).value;
    assert i == |a|;
    assert s[|a| + 1..] == b;
  }

  // ---------------------------------------------------------------------------
  // Numbers
  // ---------------------------------------------------------------------------

  /** A JavaScript number as the forms produce it: an integer, or `NaN`. */
  datatype JsNumber = Int(value: int) | NaN

  /** `n < k`; every comparison with `NaN` is false. */
  predicate LessThan(n: JsNumber, k: int)
  {
    n.Int? && n.value < k
  }

  /** `n > k`; every comparison with `NaN` is false. */
  predicate GreaterThan(n: JsNumber, k: int)
  {
    n.Int? && n.value > k
  }

  /** The value of `c` as a digit in bases up to 36 (`0-9`, then `a-z` / `A-Z`), or 36. */
  function DigitValue(c: char): (d: nat)
    ensures d <= 36
    ensures IsDigit(c) <==> d < 10
  {
    if '0' <= c <= '9' then c as int - '0' as int
    else if 'a' <= c <= 'z' then c as int - 'a' as int + 10
    else if 'A' <= c <= 'Z' then c as int - 'A' as int + 10
    else 36
  }

  /** The longest prefix of `s` made of digits of the given radix. */
  function TakeDigits(s: string, radix: nat): (r: string)
    ensures |r| <= |s| && r == s[..|r|]
    ensures forall i | 0 <= i < |r| :: DigitValue(r[i]) < radix
    ensures |r| == |s| || DigitValue(s[|r|]) >= radix
    decreases |s|
  {
    if s == [] || DigitValue(s[0]) >= radix then [] else [s[0]] + TakeDigits(s[1..], radix)
  }

  /** The value of a digit string in the given radix, most significant digit first. */
  function DigitsValue(ds: string, radix: nat): nat
    decreases |ds|
  {
    if ds == [] then 0
    else DigitsValue(ds[..|ds| - 1], radix) * radix + DigitValue(ds[|ds| - 1])
  }

  /** The longest run of radix digits at the start of `u`, converted; `NaN` when empty. */
  function DigitRun(u: string, radix: nat): JsNumber
  {
    var ds := TakeDigits(u, radix);
    if ds == [] then NaN else Int(DigitsValue(ds, radix))
  }

  /** The unsigned part of `parseInt`: a `0x` or `0X` prefix selects base 16, otherwise 10. */
  function ParseUnsigned(u: string): JsNumber
  {
    if |u| >= 2 && u[0] == '0' && (u[1] == 'x' || u[1] == 'X') then DigitRun(u[2..], 16)
    else DigitRun(u, 10)
  }

  function Negate(n: JsNumber): JsNumber
  {
    match n
    case NaN => NaN
    case Int(v) => Int(-v)
  }

  /** `parseInt(s)` with no radix: leading whitespace is skipped, one sign is read, a `0x` or
      `0X` prefix selects base 16, then the longest run of digits is converted and the rest
      ignored; no digit at all gives `NaN`. */
  function ParseInt(s: string): JsNumber
  {
    var t := TrimStart(s);
    if t != [] && t[0] == '-' then Negate(ParseUnsigned(t[1..]))
    else if t != [] && t[0] == '+' then ParseUnsigned(t[1..])
    else ParseUnsigned(t)
  }

  /** `Number(s)` for the strings the slot labels contain: `undefined` is `NaN`, the empty
      string is 0 and a run of decimal digits is its value. Other numeric syntax (signs,
      fractions, exponents, hexadecimal, surrounding whitespace) is not modelled and reads
      as `NaN`. */
  function Number(s: Option<string>): JsNumber
  {
    match s
    case None => NaN
    case Some(t) =>
      if forall i | 0 <= i < |t| :: IsDigit(t[i]) then Int(DigitsValue(t, 10)) else NaN
  }

  /** The decimal digit `d`. */
  function DigitChar(d: nat): (c: char)
    requires d < 10
    ensures IsDigit(c) && DigitValue(c) == d
  {
    "0123456789"[d]
  }

  /** `String(n)` for a natural number: its decimal digits without leading zeros. */
  function NatToString(n: nat): (s: string)
    ensures s != []
    ensures forall i | 0 <= i < |s| :: IsDigit(s[i])
    decreases n
  {
    if n < 10 then [DigitChar(n)] else NatToString(n / 10) + [DigitChar(n % 10)]
  }

  lemma {:induction false} DigitsValueOfNatToString(n: nat)
    ensures DigitsValue(NatToString(n), 10) == n
    decreases n
  {
    var s := NatToString(n);
    if n >= 10 {
      DigitsValueOfNatToString(n / 10);
      assert s[..|s| - 1] == NatToString(n / 10);
    } else {
      assert s[..|s| - 1] == [];
    }
  }

  lemma {:induction false} TakeDigitsOfDigits(s: string)
    requires forall i | 0 <= i < |s| :: IsDigit(s[i])
    ensures TakeDigits(s, 10) == s
    decreases |s|
  {
    if s != [] {
      TakeDigitsOfDigits(s[1..]);
    }
  }

  /** Reading back the decimal rendering of a natural number gives the number. */
  lemma NumberOfNatToString(n: nat)
    ensures Number(Some(NatToString(n))) == Int(n)
  {
    DigitsValueOfNatToString(n);
  }

  /** `parseInt` reads a nonempty run of decimal digits as that number in radix 10. */
  lemma ParseIntOfDigitString(s: string)
    requires s != [] && forall i | 0 <= i < |s| :: IsDigit(s[i])
    ensures ParseInt(s) == DigitRun(s, 10)
  {
    assert TrimStart(s) == s by {
      assert IsDigit(s[0]);
    }
    assert ParseUnsigned(s) == DigitRun(s, 10) by {
      if |s| >= 2 {
        assert IsDigit(s[1]);
      }
    }
  }

  /** `parseInt(String(n)) === n` for every natural number `n`. */
  lemma ParseIntOfNatToString(n: nat)
    ensures ParseInt(NatToString(n)) == Int(n)
  {
    var s := NatToString(n);
    ParseIntOfDigitString(s);
    assert DigitRun(s, 10) == Int(n) by {
      TakeDigitsOfDigits(s);
      DigitsValueOfNatToString(n);
    }
  }
}

=== FILE: validation.dfy ===
/**
 * The booking form and its validator. The routed booking page and the standalone app carry
 * two copies of `validateForm` that differ in two places: the standalone copy also rejects
 * an age that does not parse (`NaN`) and a date that does not parse. Both copies, and the
 * shared `handleInputChange`, are modelled here over one form type.
 */
module Validation {
  import opened Wrappers
  import opened Text
  import opened Records
  import opened Slots

  /** The nine fields the validator checks (gender always has a value and is never checked). */
  datatype Field = FullName | Age | FatherName | Email | Contact | Address | Date | TimeSlot | ProblemDescription

  const AllFields: set<Field> := {FullName, Age, FatherName, Email, Contact, Address, Date, TimeSlot, ProblemDescription}

  /** Which copy of `validateForm` runs. */
  datatype Variant = BookingPage | StandaloneApp

  /** The form as the page holds it: every field is text except the gender and the date. */
  datatype BookingForm = BookingForm(
    fullName: string,
    age: string,
    gender: Gender,
    fatherName: string,
    email: string,
    contact: string,
    address: string,
    date: DateField,
    timeSlot: string,
    problemDescription: string)

  /** The error map: a message per offending field. */
  type Errors = map<Field, string>

  /** The initial (and reset) form: every text field empty, gender male, no date. */
  const EmptyForm: BookingForm := BookingForm("", "", Male, "", "", "", "", NoDate, "", "")

  const FullNameRequired := "Full name is required"
  const AgeInvalid := "Please enter a valid age between 1 and 120"
  const FatherNameRequired := "Father's name is required"
  const EmailRequired := "Email is required"
  const EmailInvalid := "Please enter a valid email address"
  const ContactRequired := "Contact number is required"
  const ContactInvalid := "Please enter a valid 10-digit phone number"
  const AddressRequired := "Address is required"
  const DateRequired := "Appointment date is required"
  const DateInPast := "Please select today or a future date"
  const SlotRequired := "Time slot is required"
  const SlotUnavailable := "Selected time slot is no longer available"
  const ProblemRequired := "Problem description is required"
  const ProblemTooLong := "Problem description must be within 200 words"

  // ---------------------------------------------------------------------------
  // The checks, as the code performs them
  // ---------------------------------------------------------------------------

  /** `if (!value.trim()) ...`: a field that is blank after trimming. */
  function RequiredError(value: string, message: string): Option<string>
  {
    if IsBlank(value) then Some(message) else None
  }

  /** `!age || parseInt(age) < 1 || parseInt(age) > 120`, and in the standalone copy also
      `|| isNaN(parseInt(age))`. A `NaN` compares false both ways. */
  function AgeError(v: Variant, age: string): Option<string>
  {
    var n := ParseInt(age);
    if age == [] || LessThan(n, 1) || GreaterThan(n, 120) || (v == StandaloneApp && n.NaN?) then Some(AgeInvalid)
    else None
  }

  /** Required, then the unanchored test `/\S+@\S+\.\S+/`. */
  function EmailError(email: string): Option<string>
  {
    if IsBlank(email) then Some(EmailRequired)
    else if !MatchesEmailPattern(email) then Some(EmailInvalid)
    else None
  }

  /** Required, then `/^\d{10}$/` on the text with every non-digit removed. */
  function ContactError(contact: string): Option<string>
  {
    if IsBlank(contact) then Some(ContactRequired)
    else if |DigitsOnly(contact)| != 10 then Some(ContactInvalid)
    else None
  }

  /** Required, then `selectedDate < today` at midnight; the standalone copy also rejects an
      invalid date (`isNaN(selectedDate.getTime())`). An invalid date compares false, so the
      booking page lets it through. */
  function DateError(v: Variant, date: DateField, today: int): Option<string>
  {
    match date
    case NoDate => Some(DateRequired)
    case OnDay(d) => if d < today then Some(DateInPast) else None
    case Unparseable => if v == StandaloneApp then Some(DateInPast) else None
  }

  /** Required, then membership in the current availability list. */
  function SlotError(slot: string, date: DateField, today: int, now: int): Option<string>
  {
    if slot == [] then Some(SlotRequired)
    else if slot !in AvailableSlots(date, today, now) then Some(SlotUnavailable)
    else None
  }

  /** Required, then `trim().split(/\s+/).length > 200`. */
  function ProblemError(text: string): Option<string>
  {
    if IsBlank(text) then Some(ProblemRequired)
    else if |Split(Trim(text))| > 200 then Some(ProblemTooLong)
    else None
  }

  /** The outcome of one field's check. */
  function Check(v: Variant, f: BookingForm, fl: Field, today: int, now: int): Option<string>
  {
    match fl
    case FullName => RequiredError(f.fullName, FullNameRequired)
    case Age => AgeError(v, f.age)
    case FatherName => RequiredError(f.fatherName, FatherNameRequired)
    case Email => EmailError(f.email)
    case Contact => ContactError(f.contact)
    case Address => RequiredError(f.address, AddressRequired)
    case Date => DateError(v, f.date, today)
    case TimeSlot => SlotError(f.timeSlot, f.date, today, now)
    case ProblemDescription => ProblemError(f.problemDescription)
  }

  lemma SlotCheck(v: Variant, f: BookingForm, today: int, now: int)
    ensures Check(v, f, TimeSlot, today, now) == SlotError(f.timeSlot, f.date, today, now)
  {
  }

  // ---------------------------------------------------------------------------
  // What the checks mean
  // ---------------------------------------------------------------------------

  /** An age the variant accepts once it is parsed: a number from 1 to 120, or, on the booking
      page only, `NaN`. */
  predicate AcceptableAge(v: Variant, n: JsNumber)
  {
    match n
    case Int(k) => 1 <= k <= 120
    case NaN => v == BookingPage
  }

  /** When a field is in error, stated without the code's trimming, regular expressions,
      splitting or filtering: whitespace-only text, no `x@y.z` substring, not ten digits,
      a date before today, a slot the timetable does not offer, more than 200 words. */
  ghost predicate Violates(v: Variant, f: BookingForm, fl: Field, today: int, now: int)
  {
    match fl
    case FullName => AllSpace(f.fullName)
    case Age => AgeRuleBroken(v, f.age)
    case FatherName => AllSpace(f.fatherName)
    case Email => EmailRuleBroken(f.email)
    case Contact => ContactRuleBroken(f.contact)
    case Address => AllSpace(f.address)
    case Date => DateRuleBroken(v, f.date, today)
    case TimeSlot => SlotRuleBroken(f.timeSlot, f.date, today, now)
    case ProblemDescription => ProblemRuleBroken(f.problemDescription)
  }

  ghost predicate AgeRuleBroken(v: Variant, age: string)
  {
    age == [] || !AcceptableAge(v, ParseInt(age))
  }

  ghost predicate EmailRuleBroken(email: string)
  {
    AllSpace(email) || !EmailShape(email)
  }

  ghost predicate ContactRuleBroken(contact: string)
  {
    AllSpace(contact) || |DigitsOnly(contact)| != 10
  }

  ghost predicate DateRuleBroken(v: Variant, date: DateField, today: int)
  {
    date == NoDate || (date.OnDay? && date.day < today) || (v == StandaloneApp && date == Unparseable)
  }

  ghost predicate SlotRuleBroken(slot: string, date: DateField, today: int, now: int)
  {
    slot == [] || !Bookable(slot, date, today, now)
  }

  ghost predicate ProblemRuleBroken(text: string)
  {
    AllSpace(text) || |Words(text)| > 200
  }

  /** A field's check fails exactly when the field violates its rule. */
  lemma CheckIffViolates(v: Variant, f: BookingForm, fl: Field, today: int, now: int)
    ensures Check(v, f, fl, today, now).Some? <==> Violates(v, f, fl, today, now)
  {
    match fl
    case FullName => BlankIffAllSpace(f.fullName);
    case FatherName => BlankIffAllSpace(f.fatherName);
    case Address => BlankIffAllSpace(f.address);
    case Email => EmailOutcome(f.email);
    case Contact => ContactOutcome(f.contact);
    case ProblemDescription => ProblemOutcome(f.problemDescription);
    case TimeSlot => AvailableIffBookable(f.timeSlot, f.date, today, now);
    case Age =>
    case Date =>
  }

  lemma EmailOutcome(email: string)
    ensures EmailError(email).Some? <==> EmailRuleBroken(email)
    ensures EmailError(email).Some? ==> EmailError(email).value == if AllSpace(email) then EmailRequired else EmailInvalid
  {
    BlankIffAllSpace(email);
    EmailPatternIsShape(email);
  }

  lemma ContactOutcome(contact: string)
    ensures ContactError(contact).Some? <==> ContactRuleBroken(contact)
    ensures ContactError(contact).Some? ==> ContactError(contact).value == if AllSpace(contact) then ContactRequired else ContactInvalid
  {
    BlankIffAllSpace(contact);
  }

  lemma ProblemOutcome(text: string)
    ensures ProblemError(text).Some? <==> ProblemRuleBroken(text)
    ensures ProblemError(text).Some? ==> ProblemError(text).value == if AllSpace(text) then ProblemRequired else ProblemTooLong
  {
    BlankIffAllSpace(text);
    if !IsBlank(text) {
      ValidatorWordCount(text);
    }
  }

  /** `validateForm`: the field-to-message map, one entry per failed check. */
  function Validate(v: Variant, f: BookingForm, today: int, now: int): Errors
  {
    map fl | fl in AllFields && Check(v, f, fl, today, now).Some? :: Check(v, f, fl, today, now).value
  }

  lemma ValidateEntries(v: Variant, f: BookingForm, fl: Field, today: int, now: int)
    ensures fl in Validate(v, f, today, now) <==> Check(v, f, fl, today, now).Some?
    ensures fl in Validate(v, f, today, now) ==> Validate(v, f, today, now)[fl] == Check(v, f, fl, today, now).value
  {
  }

  /** The error map holds exactly the fields in violation. */
  lemma ErrorsAreViolations(v: Variant, f: BookingForm, today: int, now: int)
    ensures forall fl :: fl in Validate(v, f, today, now) <==> Violates(v, f, fl, today, now)
  {
    forall fl
      ensures fl in Validate(v, f, today, now) <==> Violates(v, f, fl, today, now)
    {
      ValidateEntries(v, f, fl, today, now);
      CheckIffViolates(v, f, fl, today, now);
    }
  }

  /** `validateForm` returns true: `Object.keys(newErrors).length === 0`. */
  predicate IsValid(v: Variant, f: BookingForm, today: int, now: int)
  {
    |Validate(v, f, today, now)| == 0
  }

  /** The form is valid exactly when no field violates its rule. */
  lemma ValidIffNoViolation(v: Variant, f: BookingForm, today: int, now: int)
    ensures IsValid(v, f, today, now) <==> forall fl :: !Violates(v, f, fl, today, now)
  {
    var errors := Validate(v, f, today, now);
    ErrorsAreViolations(v, f, today, now);
    if |errors| == 0 {
      forall fl
        ensures !Violates(v, f, fl, today, now)
      {
        assert fl !in errors.Keys;
      }
    } else {
      var fl :| fl in errors.Keys;
      assert Violates(v, f, fl, today, now);
    }
  }

  /** On a valid form no single field violates its rule. */
  lemma NotViolated(v: Variant, f: BookingForm, fl: Field, today: int, now: int)
    requires IsValid(v, f, today, now)
    ensures !Violates(v, f, fl, today, now)
  {
    ValidateEntries(v, f, fl, today, now);
    CheckIffViolates(v, f, fl, today, now);
  }

  /** The rules of a valid form, one field at a time. */
  lemma NamesAccepted(v: Variant, f: BookingForm, today: int, now: int)
    requires IsValid(v, f, today, now)
    ensures !AllSpace(f.fullName) && !AllSpace(f.fatherName) && !AllSpace(f.address)
  {
    NotViolated(v, f, FullName, today, now);
    NotViolated(v, f, FatherName, today, now);
    NotViolated(v, f, Address, today, now);
  }

  lemma ContactDetailsAccepted(v: Variant, f: BookingForm, today: int, now: int)
    requires IsValid(v, f, today, now)
    ensures EmailShape(f.email) && |DigitsOnly(f.contact)| == 10
  {
    NotViolated(v, f, Email, today, now);
    NotViolated(v, f, Contact, today, now);
  }

  lemma ProblemAccepted(v: Variant, f: BookingForm, today: int, now: int)
    requires IsValid(v, f, today, now)
    ensures !AllSpace(f.problemDescription) && |Words(f.problemDescription)| <= 200
  {
    assert !ProblemRuleBroken(f.problemDescription) by {
      NotViolated(v, f, ProblemDescription, today, now);
    }
  }

  lemma AgeAccepted(v: Variant, f: BookingForm, today: int, now: int)
    requires IsValid(v, f, today, now)
    ensures AcceptableAge(v, ParseInt(f.age))
  {
    NotViolated(v, f, Age, today, now);
  }

  lemma DateAccepted(v: Variant, f: BookingForm, today: int, now: int)
    requires IsValid(v, f, today, now)
    ensures f.date != NoDate && (f.date.OnDay? ==> f.date.day >= today)
    ensures v == StandaloneApp ==> f.date.OnDay?
  {
    NotViolated(v, f, Date, today, now);
  }

  lemma SlotAccepted(v: Variant, f: BookingForm, today: int, now: int)
    requires IsValid(v, f, today, now)
    ensures Bookable(f.timeSlot, f.date, today, now)
  {
    NotViolated(v, f, TimeSlot, today, now);
  }

  /** The message a failed check reports: "required" for blank or missing input, and a
      second message for input that is present but wrong. */
  function Message(f: BookingForm, fl: Field): string
  {
    match fl
    case FullName => FullNameRequired
    case Age => AgeInvalid
    case FatherName => FatherNameRequired
    case Email => if AllSpace(f.email) then EmailRequired else EmailInvalid
    case Contact => if AllSpace(f.contact) then ContactRequired else ContactInvalid
    case Address => AddressRequired
    case Date => if f.date == NoDate then DateRequired else DateInPast
    case TimeSlot => if f.timeSlot == [] then SlotRequired else SlotUnavailable
    case ProblemDescription => if AllSpace(f.problemDescription) then ProblemRequired else ProblemTooLong
  }

  lemma CheckMessage(v: Variant, f: BookingForm, fl: Field, today: int, now: int)
    ensures Check(v, f, fl, today, now).Some? ==> Check(v, f, fl, today, now).value == Message(f, fl)
  {
    match fl
    case Email => EmailOutcome(f.email);
    case Contact => ContactOutcome(f.contact);
    case ProblemDescription => ProblemOutcome(f.problemDescription);
    case _ =>
  }

  /** Each reported message names the rule that was broken. */
  lemma ErrorMessages(v: Variant, f: BookingForm, today: int, now: int)
    ensures forall fl | fl in Validate(v, f, today, now) :: Validate(v, f, today, now)[fl] == Message(f, fl)
  {
    forall fl | fl in Validate(v, f, today, now)
      ensures Validate(v, f, today, now)[fl] == Message(f, fl)
    {
      ValidateEntries(v, f, fl, today, now);
      CheckMessage(v, f, fl, today, now);
    }
  }

  // ---------------------------------------------------------------------------
  // The two copies compared
  // ---------------------------------------------------------------------------

  /** The standalone copy reports everything the booking page reports, with the same
      messages, plus an age error for a nonempty age that parses to `NaN` and a date error
      for a date that does not parse; nothing else differs. */
  lemma VariantsDiverge(f: BookingForm, today: int, now: int)
    ensures var page := Validate(BookingPage, f, today, now);
      var app := Validate(StandaloneApp, f, today, now);
      app.Keys == page.Keys
        + (if f.age != [] && ParseInt(f.age).NaN? then {Age} else {})
        + (if f.date == Unparseable then {Date} else {})
      && forall fl | fl in page :: app[fl] == page[fl]
  {
    var page := Validate(BookingPage, f, today, now);
    var app := Validate(StandaloneApp, f, today, now);
    var extra := (if f.age != [] && ParseInt(f.age).NaN? then {Age} else {}) + (if f.date == Unparseable then {Date} else {});
    forall fl
      ensures (fl in app <==> fl in page || fl in extra) && (fl in page ==> app[fl] == page[fl])
    {
      DivergeAt(f, fl, today, now);
    }
    assert app.Keys == page.Keys + extra;
  }

  lemma DivergeAt(f: BookingForm, fl: Field, today: int, now: int)
    ensures fl in Validate(StandaloneApp, f, today, now) <==>
      (fl in Validate(BookingPage, f, today, now) ||
       (fl == Age && f.age != [] && ParseInt(f.age).NaN?) || (fl == Date && f.date == Unparseable))
    ensures fl in Validate(BookingPage, f, today, now) ==>
      Validate(StandaloneApp, f, today, now)[fl] == Validate(BookingPage, f, today, now)[fl]
  {
    ValidateEntries(BookingPage, f, fl, today, now);
    ValidateEntries(StandaloneApp, f, fl, today, now);
  }

  /** The inputs a field's check reads agree in two forms: the field itself, and for the
      slot also the date. */
  predicate SameInput(f: BookingForm, g: BookingForm, fl: Field)
  {
    match fl
    case FullName => f.fullName == g.fullName
    case Age => f.age == g.age
    case FatherName => f.fatherName == g.fatherName
    case Email => f.email == g.email
    case Contact => f.contact == g.contact
    case Address => f.address == g.address
    case Date => f.date == g.date
    case TimeSlot => f.timeSlot == g.timeSlot && f.date == g.date
    case ProblemDescription => f.problemDescription == g.problemDescription
  }

  /** Each field's outcome depends only on that field (and, for the slot, the date, today and
      now): forms that agree on those inputs get the same entry. */
  lemma ErrorIsLocal(v: Variant, f: BookingForm, g: BookingForm, fl: Field, today: int, now: int)
    requires SameInput(f, g, fl)
    ensures fl in Validate(v, f, today, now) <==> fl in Validate(v, g, today, now)
    ensures fl in Validate(v, f, today, now) ==> Validate(v, f, today, now)[fl] == Validate(v, g, today, now)[fl]
  {
    ValidateEntries(v, f, fl, today, now);
    ValidateEntries(v, g, fl, today, now);
  }

  /** An error map with no field in it is empty. */
  lemma NoFieldNoErrors(errors: Errors)
    requires forall fl: Field :: fl !in errors
    ensures |errors| == 0
  {
    assert errors.Keys == {};
  }

  lemma ParseIntOfLetters()
    ensures ParseInt("abc") == NaN
  {
    assert TrimStart("abc") == "abc";
    assert TakeDigits("abc", 10) == [];
  }

  /** A form the booking page accepts stays acceptable to it with the age "abc", which the
      standalone copy rejects. */
  lemma NaNAgeSplitsVariants(f: BookingForm, today: int, now: int)
    requires IsValid(BookingPage, f, today, now)
    ensures IsValid(BookingPage, f.(age := "abc"), today, now)
    ensures Age in Validate(StandaloneApp, f.(age := "abc"), today, now)
  {
    var g := f.(age := "abc");
    ParseIntOfLetters();
    forall fl: Field
      ensures fl !in Validate(BookingPage, g, today, now)
    {
      if fl == Age {
        ValidateEntries(BookingPage, g, Age, today, now);
      } else {
        assert SameInput(f, g, fl);
        ErrorIsLocal(BookingPage, f, g, fl, today, now);
      }
    }
    NoFieldNoErrors(Validate(BookingPage, g, today, now));
    ValidateEntries(StandaloneApp, g, Age, today, now);
  }

  /** Likewise an unparseable date: the booking page accepts it, the standalone app does not. */
  lemma UnparseableDateSplitsVariants(f: BookingForm, today: int, now: int)
    requires IsValid(BookingPage, f, today, now)
    ensures IsValid(BookingPage, f.(date := Unparseable), today, now)
    ensures Date in Validate(StandaloneApp, f.(date := Unparseable), today, now)
  {
    var g := f.(date := Unparseable);
    forall fl: Field
      ensures fl !in Validate(BookingPage, g, today, now)
    {
      if fl == Date {
        ValidateEntries(BookingPage, g, Date, today, now);
      } else if fl == TimeSlot {
        ValidateEntries(BookingPage, f, TimeSlot, today, now);
        ValidateEntries(BookingPage, g, TimeSlot, today, now);
      } else {
        assert SameInput(f, g, fl);
        ErrorIsLocal(BookingPage, f, g, fl, today, now);
      }
    }
    NoFieldNoErrors(Validate(BookingPage, g, today, now));
    ValidateEntries(StandaloneApp, g, Date, today, now);
  }

  // ---------------------------------------------------------------------------
  // Particular forms
  // ---------------------------------------------------------------------------

  /** A form with every text field empty and no date. */
  predicate Untouched(f: BookingForm)
  {
    f.fullName == [] && f.age == [] && f.fatherName == [] && f.email == [] && f.contact == [] &&
    f.address == [] && f.date == NoDate && f.timeSlot == [] && f.problemDescription == []
  }

  /** The message each check reports for a field left empty. */
  function RequiredMessage(fl: Field): string
  {
    match fl
    case FullName => FullNameRequired
    case Age => AgeInvalid
    case FatherName => FatherNameRequired
    case Email => EmailRequired
    case Contact => ContactRequired
    case Address => AddressRequired
    case Date => DateRequired
    case TimeSlot => SlotRequired
    case ProblemDescription => ProblemRequired
  }

  /** The untouched form fails all nine checks, each with its "required" message. */
  lemma EmptyFormErrors(v: Variant, f: BookingForm, today: int, now: int)
    requires Untouched(f)
    ensures forall fl: Field :: fl in Validate(v, f, today, now) && Validate(v, f, today, now)[fl] == RequiredMessage(fl)
  {
    forall fl: Field
      ensures fl in Validate(v, f, today, now) && Validate(v, f, today, now)[fl] == RequiredMessage(fl)
    {
      UntouchedReported(v, f, fl, today, now);
    }
  }

  lemma UntouchedReported(v: Variant, f: BookingForm, fl: Field, today: int, now: int)
    requires Untouched(f)
    ensures fl in Validate(v, f, today, now) && Validate(v, f, today, now)[fl] == RequiredMessage(fl)
  {
    ValidateEntries(v, f, fl, today, now);
  }

  /** A whole number typed as the age is accepted by both copies exactly when it lies
      between 1 and 120. */
  lemma AgeOfNumber(v: Variant, f: BookingForm, n: nat, today: int, now: int)
    requires f.age == NatToString(n)
    ensures Age in Validate(v, f, today, now) <==> !(1 <= n <= 120)
    ensures Age in Validate(v, f, today, now) ==> Validate(v, f, today, now)[Age] == AgeInvalid
  {
    ParseIntOfNatToString(n);
    ValidateEntries(v, f, Age, today, now);
  }
}

=== FILE: wrappers.dfy ===
/** Failure-compatible wrappers shared by every module of the clinic model. */
module Wrappers {

  /** A value that may be absent: JavaScript's `undefined` / `null`, or a missing map entry. */
  datatype Option<+T> = None | Some(value: T)

  /** The outcome of an operation that either succeeds or raises an error with a message. */
  datatype Result<+T> = Ok(value: T) | Err(message: string)
}
